=== FILE: README.md ===
# MOHID HDF5 viewer tools: a Dafny model

This project models the data side of a small set of Python tools that read
and plot MOHID model output:

- `m_readhdf.py` extracts time, grid, bathymetry and gridded fields from a
  MOHID HDF5 file. The file is modelled as a value (`Hdf.File`): a map from
  object path to either a group, whose members are the per-step arrays in key
  order, or a single dataset. `getTime`, `getgrid` and `getbatim` are
  functions. `get2Ddata` is a method. It mirrors the source's loops that
  collect the members, its layer check, the depth reversal and layer
  selection, the OpenPoints land mask and the final transpose.
- `p_plotLAGR.py` checks the Lagrangian groups and trims the grid edges. At
  each time step it keeps the particles whose property value reaches the
  lower colour bound. The per-step loop is a method. The particle filter is
  a boolean-mask selection applied to three co-indexed arrays.
- `p_plotTS.py` reads a MOHID time-series text file. It scans for the column
  row before `<BeginTimeSerie>`, then reads one row per body line up to
  `<EndTimeSerie>`, checking each line's token count. Last it drops the
  "Seconds", "OpenPoint" and date columns. The two `while` loops are methods
  proved against reference functions (`PlotTs.ParseTimeSeries`).
- `m_inputs.py` validates the JSON configuration. The init file's group for
  a program must be a non-empty dictionary. Its keys are then type-checked
  in a fixed order, and the first failing key decides the error.

Conventions:

- numpy's `astype("i2")` truncates toward zero (`NdArray.Trunc`). Values are
  required to fit in 16 bits.
- Python's negative indexing is `NdArray.PyIndex`.
- A masked-array element is a `ReadHdf.Cell` (value and mask bit).
- Errors the source reports and then exits on (`raise SystemExit`) are `Err`
  results. Conditions under which the source would crash inside numpy or
  h5py are preconditions: a missing `Time` or `Grid` dataset, ragged
  members, too few particle members. One pandas crash is modelled as a
  result instead: the KeyError `df.drop` raises for a column that is not
  there (p_plotTS.py:76 and 89-91) is `Err(MissingColumn(name))`, because
  a file without a "Seconds" or date column is an ordinary input.

Where the source's comments and its code disagree, the model follows the code:

- `getgrid` takes row 0 of the stored latitude mesh, although the comment
  says "first column".
- `getbatim` masks values strictly below -98. A bathymetry of exactly -98 is
  water.
- `get2Ddata` range-checks `layerid` only when the field is 3-D. For a 2-D
  field with a 3-D OpenPoints group, the mask is indexed with `layerid` as a
  Python index, so a negative layer selects from the bottom
  (`ReadHdf.MaskMatches`).
- The land mask is "narrowed value below 1". That is the same as "stored
  value below 1.0" (`NdArray.TruncBelowOne`).
- The configuration messages ask for "an integer >= 0" or ">= 1", but only
  the type is checked, and a bool counts as an int
  (`Inputs.AnyLayerAccepted`).
- `vmin` may exceed `vmax` (`Inputs.AnyBoundsAccepted`).
- Timestamps are not checked for order.

## Model

| member | source | states |
|---|---|---|
| NdArray.Trunc | m_readhdf.py:38 | narrowing to a 16-bit integer truncates toward zero: for x >= 0 the result is the floor, for x < 0 the ceiling |
| NdArray.TruncOfInt | m_readhdf.py:28-34 | a time field stored as an integral float narrows back to that integer |
| NdArray.TruncBelowOne | m_readhdf.py:144-147 | the narrowed OpenPoints value is below 1 exactly when the stored value is below 1.0 |
| NdArray.Transpose | m_readhdf.py:61 | the transpose has the swapped shape and r[i][j] is m[j][i] |
| NdArray.TransposeTwice | m_readhdf.py:77 | transposing twice gives back the array |
| NdArray.Reverse | m_readhdf.py:131 | `[::-1]` keeps the length and r[i] is s[n-1-i] |
| NdArray.DropLast | p_plotLAGR.py:77 | `[:-1]` of a non-empty sequence is one shorter and, with the last element put back, is the sequence again; the empty sequence stays empty |
| NdArray.PyIndex | m_readhdf.py:133 | a Python index in [-n, n) names position i when i >= 0, and position n+i when i < 0 |
| NdArray.KeptIndices | p_plotLAGR.py:108 | the true positions of a mask, strictly increasing, each one true, and every true position present |
| NdArray.Compress | p_plotLAGR.py:108 | numpy boolean indexing `a[mask]`: the entries at true positions, in order (stated by CompressAt, CompressAll, CompressNone and CompressTwice) |
| NdArray.CompressAt | p_plotLAGR.py:108 | `a[mask]` has one element per true position, and its k-th element is a at the k-th true position |
| NdArray.CompressAll | p_plotLAGR.py:107-108 | an all-true mask keeps the array unchanged |
| NdArray.CompressNone | p_plotLAGR.py:107-108 | an all-false mask leaves nothing |
| NdArray.KeptIndicesUnique | p_plotLAGR.py:108 | an increasing list of exactly the true positions of a mask is the mask's kept positions |
| NdArray.KeptIndicesCompose | p_plotTS.py:76-91 | selecting with one mask among the positions another mask keeps picks the positions the combined mask keeps |
| NdArray.CompressTwice | p_plotTS.py:76-91 | two boolean selections in a row are one selection with the combined mask |
| NdArray.CompressKept | p_plotLAGR.py:108 | every element of `a[mask]` is an element of a at a true position |
| Hdf.Canon | m_readhdf.py:60-75 | the key an object path is looked up under never starts with '/' |
| Hdf.CanonKeepsRest | m_readhdf.py:60-75 | the key is the path with leading '/'s removed: what goes is all '/', and the rest of the path is kept unchanged |
| Hdf.CanonSlash | m_readhdf.py:60-75 | "/" + q and q are looked up under the same key, so "/Grid/X" and "Grid/X" name the same object |
| Hdf.InFile | m_readhdf.py:99 | `path in hdf`: a path with a leading '/' is found iff the path without it is; a path without one is found iff it is a key of the file |
| Hdf.Members | m_readhdf.py:107-111 | the arrays of a group's members, read in key order (the order the file gives; h5py's ordering is not modelled) |
| Hdf.Read | m_readhdf.py:75 | `hdf[path][...]`: the array stored at a dataset path, looked up under its key |
| Hdf.StackOf | m_readhdf.py:108-113 | `np.array` of the members is rank 3 for 2-D members and rank 4 for 3-D ones, and step t is member t |
| ReadHdf.ToTimestamp | m_readhdf.py:38-39 | a six-value time record becomes a timestamp, each field narrowed to a 16-bit integer (stated for every member by GetTime and GetTimeRoundTrip) |
| ReadHdf.GetTime | m_readhdf.py:36-41 | one timestamp per member of the Time group, in key order, each field the stored value narrowed to 16 bits |
| ReadHdf.GetTimeRoundTrip | m_readhdf.py:28-39 | reading a Time group written from 16-bit timestamps gives back exactly those timestamps |
| ReadHdf.GetGrid | m_readhdf.py:59-64 | lat is row 0 of the latitude mesh; lon has one entry per mesh row, entry i being the mesh's [i][0] |
| ReadHdf.GridOfMeshgrid | m_readhdf.py:52-61 | from meshgrids of the edge arrays, getgrid returns the edge arrays themselves |
| ReadHdf.MaskedLess | m_readhdf.py:77 | `masked_less` keeps every value and masks exactly those strictly below the bound |
| ReadHdf.GetBatim | m_readhdf.py:74-79 | the bathymetry as (lat, lon): entry [i][j] is stored [j][i], masked iff it is below -98 |
| ReadHdf.BatimKeepsStoredValues | m_readhdf.py:75-77 | the masked bathymetry's values, transposed back, are the stored array |
| ReadHdf.CubeBelowOne | m_readhdf.py:146-147 | the rank-3 land mask is true where the narrowed value is below 1 |
| ReadHdf.BelowOne | m_readhdf.py:146-147 | the land mask keeps the stack's rank and shape and is true where the narrowed value is below 1 |
| ReadHdf.FlipDepth | m_readhdf.py:131 | `a[:, ::-1]` puts stored depth nz-1-z at z for every step |
| ReadHdf.TakeLayer | m_readhdf.py:133 | `a[:, l]` is depth l of every step |
| ReadHdf.SelectLayer | m_readhdf.py:128-133 | a rank-3 stack is kept; for a rank-4 stack, entry [t][x][y] is stored depth nz-1-PyIndex(layerid) of step t |
| ReadHdf.MaskWith | m_readhdf.py:153 | the masked array pairs every value with the mask bit at the same position |
| ReadHdf.SwapLastAxes | m_readhdf.py:158 | `transpose(a, (0, 2, 1))`: r[t][i][j] is a[t][j][i] |
| ReadHdf.LayerValue | m_readhdf.py:128-133 | the reference value of a member at a layer: a 2-D member's own value, a 3-D member's value at the layer counted from the surface with Python's negative indexing (stated by LayerIndexing) |
| ReadHdf.LayerIndexing | m_readhdf.py:129-133 | layer 0 is the last stored slice (the surface), layer l >= 0 is stored slice nz-1-l, a negative layer l is stored slice -l-1 |
| ReadHdf.SelectLayerOfMembers | m_readhdf.py:110-133 | stacking the members and selecting the layer gives each member's value at that layer |
| ReadHdf.SelectMaskOfMembers | m_readhdf.py:138-151 | the same for the OpenPoints land mask |
| ReadHdf.CollectMembers | m_readhdf.py:108-111 | the append loop collects every member of the group, in key order |
| ReadHdf.MaskedLayer | m_readhdf.py:128-158 | shape (steps, lat, lon), and [t][i][j] is member t's layer value at [j][i], masked iff the OpenPoints member t narrowed at [j][i] is below 1 |
| ReadHdf.MaskedLayerValues | m_readhdf.py:128-158 | the layer selection, masking and transpose, composed, give each member's layer value with its land-mask bit |
| ReadHdf.Get2DData | m_readhdf.py:97-158 | a path not in the file is an error naming it; a 3-D field with a layer outside [0, depth) is an error reporting the depth; otherwise the result has shape (steps, lat, lon), and [t][i][j] is member t's layer value at [j][i], masked iff OpenPoints member t narrowed at [j][i] is below 1 |
| PlotLagr.CheckGroups | p_plotLAGR.py:50-65 | no error iff both the origin group and its property group exist; otherwise the error names a missing path, the property path only when the origin exists |
| PlotLagr.MissingOriginFirst | p_plotLAGR.py:53-57 | a missing origin group is reported before the property group is looked at |
| PlotLagr.AtLeast | p_plotLAGR.py:107 | the particle mask is true exactly where the value is >= vmin |
| PlotLagr.SelectParticles | p_plotLAGR.py:107-108 | lon, lat and value are cut with the same mask: the outputs are co-indexed, the k-th selected particle is the source particle at the k-th kept position, and every selected value is >= vmin |
| PlotLagr.SelectKeepsQualifying | p_plotLAGR.py:107-108 | every particle whose value is >= vmin is selected with its position and value |
| PlotLagr.SelectKeepsOrder | p_plotLAGR.py:108 | the selected particles keep their relative order |
| PlotLagr.SelectAll | p_plotLAGR.py:107-108 | when vmin is at or below every value, all particles are kept unchanged |
| PlotLagr.SelectNone | p_plotLAGR.py:107-108 | when vmin exceeds every value, all three outputs are empty |
| PlotLagr.StepParticles | p_plotLAGR.py:94-104 | the particles of step pos come from the pos-th member, in key order, of the Latitude, Longitude and property groups |
| PlotLagr.TrimKeepsPrefix | p_plotLAGR.py:77 | trimming the edge arrays drops exactly the last edge and keeps all the others in place |
| PlotLagr.PlotLagrangian | p_plotLAGR.py:50-108 | an error iff a group check fails, and then that check's error; otherwise the times, trimmed edges and bathymetry read from the file, and one frame per time step that selects the step's particles with the vmin threshold |
| PyStr.Contains | p_plotTS.py:36-38 | `pat in line`: the pattern occurs at some position of the line (used through ContainsNonSpace and LineAt) |
| PyStr.Split | p_plotTS.py:61 | `str.split()` yields non-empty tokens free of every character `str.isspace()` accepts |
| PyStr.TokenLenOf | p_plotTS.py:61 | a token followed by whitespace or the end of the line is read whole |
| PyStr.SplitToken | p_plotTS.py:61 | a token followed by whitespace or the end of the line is the first field, then the rest is split |
| PyStr.SplitJoin | p_plotTS.py:50 | splitting names joined by spaces gives back the names |
| PyStr.SplitNonEmpty | p_plotTS.py:50 | a line with a non-space character has at least one token |
| PyStr.ContainsNonSpace | p_plotTS.py:36 | a line containing a pattern contains each of its characters, in particular its non-space ones |
| PlotTs.LineAt | p_plotTS.py:32 | `readline()` gives the next line, and past the last one the empty string, which holds no marker and no token |
| PlotTs.FirstStop | p_plotTS.py:32-39 | the first line that contains the begin marker and no column row, with no such line before it |
| PlotTs.LastHeader | p_plotTS.py:32-39 | the last column row before a line, or "" exactly when there is none |
| PlotTs.EndIndex | p_plotTS.py:53-59 | the first line at or after k containing the end marker, or the file length |
| PlotTs.FirstBadLine | p_plotTS.py:61-68 | the first line in a range whose token count differs from n, with every line before it matching |
| PlotTs.BodyRows | p_plotTS.py:70 | one row per line of the range, in file order, each the line's tokens |
| PlotTs.HeaderHasColumns | p_plotTS.py:41-50 | a column row has at least one column name |
| PlotTs.ParseBody | p_plotTS.py:51-70 | accepted iff every line before the first end marker has n tokens and the end marker exists; an accepted body is the rows of those lines, one value per column in each; an error is the 1-based number of the first line before the end marker whose token count differs, or, when the file ends first with every line matching, the number of the read past the last line |
| PlotTs.ParseTimeSeries | p_plotTS.py:27-70 | header-not-found iff no column row precedes the first begin-marker line; otherwise the file is accepted iff every line from just after the marker to the first end marker has one token per column and that end marker exists, a bad line is reported by its 1-based number and a missing end marker as the read past the last line; an accepted table's columns are the split of the last column row and its rows are the lines up to the end marker |
| PlotTs.ScanHeader | p_plotTS.py:27-39 | the header loop stops just after the first begin-marker line that is not a column row, holding the last column row before it |
| PlotTs.ReadBody | p_plotTS.py:51-70 | the body loop yields the rows up to the end marker, or the first bad line (the read past the end counting as one) |
| PlotTs.ReadTimeSeries | p_plotTS.py:27-70 | the two loops produce exactly the reference parse, including its errors |
| PlotTs.ColumnMask | p_plotTS.py:76-91 | a column is kept iff its label is none of the dropped ones |
| PlotTs.DropAll | p_plotTS.py:76-91 | dropping labels removes their columns and the values under them from every row; the k-th column left is the k-th kept column, with its label and values; the labels left are exactly the others; dropping only absent labels changes nothing |
| PlotTs.DropAllFacts | p_plotTS.py:76-91 | the table cut with the column mask is rectangular, co-indexed with the kept positions, and holds exactly the other labels |
| PlotTs.DropNothing | p_plotTS.py:78-79 | a mask for labels that are not columns keeps the table as it is |
| PlotTs.CompressRows | p_plotTS.py:76-91 | every row cut with the column mask keeps the values at the kept positions |
| PlotTs.CompressRowsAll | p_plotTS.py:78-79 | a mask that keeps every column leaves every row unchanged |
| PlotTs.CompressedNames | p_plotTS.py:76-91 | the labels left after dropping names are exactly the other labels |
| PlotTs.DropTwice | p_plotTS.py:76-79 | dropping one list of labels, then another, is dropping both lists at once |
| PlotTs.CompressEachTwice | p_plotTS.py:76-79 | every row selected with two masks in a row is the row selected with the combined mask |
| PlotTs.DropSecondsAndOpenPoint | p_plotTS.py:76-79 | an error iff "Seconds" is missing; otherwise the table is the one-step drop of "Seconds" and "OpenPoint", so the other columns keep their order, labels and values |
| PlotTs.RenameLabel | p_plotTS.py:82-85 | YY, MM, DD, hh, mm and ss become year, month, day, hours, minutes and seconds; every other label is kept |
| PlotTs.RenameColumns | p_plotTS.py:82-85 | each label is renamed in place, and the rows are untouched |
| PlotTs.FirstMissing | p_plotTS.py:89-91 | none iff every listed label is a column; otherwise a listed label that is not a column |
| PlotTs.DropColumns | p_plotTS.py:89-91 | a drop of several labels fails iff one is not a column, naming such a label; otherwise the k-th column left is the k-th column not dropped, with its label and values, and the labels left are exactly the others |
| PlotTs.RenamedOrigin | p_plotTS.py:82-85 | every label after the rename comes from an original column other than "Seconds" and "OpenPoint" |
| PlotTs.OriginRenamed | p_plotTS.py:82-85 | every original column other than "Seconds" and "OpenPoint" is present under its new label |
| PlotTs.RenamedLabels | p_plotTS.py:76-85 | after the first drop and the rename, the labels are exactly the renamed original labels other than "Seconds" and "OpenPoint" |
| PlotTs.ValueMask | p_plotTS.py:76-91 | a column is a value column iff it is neither "Seconds" nor "OpenPoint" and its renamed label is not a date part |
| PlotTs.ValueCells | p_plotTS.py:76-91 | the first drop, the rename and the date drop, composed, leave the value columns in order, each renamed and with its values |
| PlotTs.ValueColumns | p_plotTS.py:74-91 | success iff "Seconds" is present and every date part is the renamed label of a column other than "Seconds" and "OpenPoint"; a missing "Seconds" is the error first, otherwise the error names a date part no such column renames to; on success the k-th column left is the k-th value column, renamed, with its values, and the labels left are the renamed non-date ones |
| Inputs.Get | m_inputs.py:57 | `dict.get(key)`: the stored value, and None for a missing key, which then fails every guard (Passes) |
| Inputs.InitFile | m_inputs.py:19-44 | a missing init file is its own error; otherwise the group is returned iff the document is a dictionary whose entry for the group is a non-empty dictionary, and every other document is a group-not-found error |
| Inputs.Passes | m_inputs.py:79-162 | a missing key fails every guard; the string guards accept only strings; the int guard accepts exactly ints and bools, the number guard exactly ints, bools and floats, and a bool passes exactly those two and the bool guard, as Python's isinstance has it |
| Inputs.Validate | m_inputs.py:75-163 | no error iff every guard passes; otherwise the error is the key and kind of the first guard that fails |
| Inputs.ValidateAppend | m_inputs.py:174-255 | running guards one list after another: a failure in the first list wins, otherwise the second list decides |
| Inputs.ValidateIgnoresOtherKeys | m_inputs.py:75-163 | values under keys no guard reads do not change the outcome |
| Inputs.ValidateUpdate | m_inputs.py:108-114 | replacing a value by one that every guard on its key accepts keeps a passing group passing |
| Inputs.InitPlotTS | m_inputs.py:47-64 | init_file's error is passed through; otherwise the result is "tsfile" iff it is a string naming an existing file, else a file-not-found error on "tsfile" |
| Inputs.InitChecked | m_inputs.py:67-163 | init_file's error is passed through; otherwise the group is returned unchanged iff all guards pass, else the first failing guard's error |
| Inputs.InitPlotHDF | m_inputs.py:67-163 | init_plotHDF is init_file("HDF") followed by its eleven guards in source order, and returns the group unchanged |
| Inputs.InitPlotLAGR | m_inputs.py:166-255 | init_plotLAGR is init_file("LAGR") followed by its ten guards in source order, and returns the group unchanged |
| Inputs.PlotHdfGuarantees | m_inputs.py:75-162 | an accepted HDF group has an existing "hdf" file and "outdir" directory, string "prefix", "cmap", "label" and "timestr", a non-empty "field", a bool "vectors", and int (or bool) "layer", "vec_zoom" and "levels" |
| Inputs.PlotLagrGuarantees | m_inputs.py:174-254 | an accepted LAGR group has an existing "hdf" file and "outdir" directory, string "origin_name", "cmap", "label" and "timestr", a non-empty "propertie_name", an int "levels" and numeric "vmax" and "vmin" |
| Inputs.AnyLayerAccepted | m_inputs.py:108-114 | any integer "layer", a negative one included, passes |
| Inputs.AnyBoundsAccepted | m_inputs.py:232-246 | any two numbers pass as "vmax" and "vmin", whatever their order |

## Left out

- File access: opening and closing HDF5 and text files, `hdf.close()`, and h5py's key ordering. Group members are taken in the order given. The time-series file is never closed, because `dat.close` (p_plotTS.py:72) is not called; that is not visible in a value model.
- Hdf.Canon: only leading slashes are normalised. h5py's other path handling (repeated or trailing slashes, `..`) is not modelled.
- `datetime(...)` calendar validation at m_readhdf.py:39 (timestamps are plain 6-field records), and `astype("i2")` overflow, which is excluded by requiring the stored values to fit 16 bits.
- ReadHdf.GetTime, ReadHdf.GetGrid, ReadHdf.GetBatim, ReadHdf.Get2DData: an absent `Time`, `Grid/Latitude`, `Grid/Longitude`, `Grid/Bathymetry` or `Grid/OpenPoints` object, ragged members, field members of different shapes, and a field group that is empty or whose members are 1-D (`Hdf.Stackable`; `np.transpose` fails on them) crash the source inside h5py or numpy. They are preconditions here, not error results.
- ReadHdf.Get2DData requires the OpenPoints group to have the field's step count and spatial shape, and, when it is 3-D, a depth that admits `layerid` (`ReadHdf.MaskFits`). The source fails on a mismatch only when some OpenPoints value narrows below 1: then the mask is a full boolean array, and numpy raises IndexError for a depth that does not admit `layerid`, or an error for a mask whose size differs from the field's. A mask of the field's size but another shape is silently reshaped by `np.ma.masked_array`. When no OpenPoints value narrows below 1, `masked_less(...).mask` is the scalar `nomask`: the layer selection on the mask is skipped, and the source returns the whole field unmasked for any `layerid` and any OpenPoints shape. These mismatched cases, all-water or not, are excluded by the precondition rather than modelled.
- p_plotLAGR.py:80: `(batim/batim).astype("i2")`, the floating-point 0/1 water map. `PlotLagr.PlotLagrangian` returns the masked bathymetry it is computed from.
- Rendering and animation: matplotlib figures, colour maps, `BoundaryNorm`, `np.linspace`, the `strftime` output names, imageio and `glob` (p_plotLAGR.py:84-91, 110-146). p_plotHDF.py is not part of this model.
- PlotLagr.PlotLagrangian: fewer particle members than time steps, or particle arrays of different lengths, make the source raise IndexError. A missing `/Results/<origin>/Latitude` or `/Longitude` group makes it raise KeyError (p_plotLAGR.py:94, 98). All of these are preconditions. Particle members of rank above 1 are excluded too (`PlotLagr.HasVectorAt` asks for 1-D members), although the source handles them: a boolean mask of the same shape selects from them and flattens the result.
- PlotTs.ReadTimeSeries: the header loop does not terminate when no line stops it, because `readline()` returns "" forever. The model requires such a line to exist.
- PlotTs.ValueColumns: `pd.to_datetime` on the date columns (p_plotTS.py:87) and the conversion of the values with `astype("f8")` (p_plotTS.py:94) are not modelled. The date columns are only checked for presence and dropped. So the model accepts tables the source rejects: date parts that form no valid date, value cells that are not numbers, and extra columns that lie between "year" and "seconds" and so fall inside the label slice `df.loc[:, "year":"seconds"]`, which `to_datetime` refuses. Which of pandas' two errors a missing date column raises is not distinguished.
- PlotTs.DropColumns: pandas reports all missing labels at once; the model reports one of them.
- The interactive plot loop of p_plotTS.py (lines 97-120), which uses `input()`.
- `json.load` failures on malformed JSON, and `os.path.isfile` / `os.path.isdir`, which are given as sets of existing paths.
- Floating-point values are reals: no NaN, infinities or rounding.

=== FILE: hdf.dfy ===
/**
  A MOHID HDF5 output file, seen as a value: every object path maps either to
  a group, whose members are the per-step arrays in key order, or to a single
  dataset. Arrays carry their numpy shape.
*/
module Hdf {
  import opened NdArray

  /** A stored numpy array of rank 1, 2 or 3, with its shape. */
  datatype Arr =
    | Vector(v: seq<real>)
    | Plane(nx: nat, ny: nat, m: Grid<real>)
    | Volume(nz: nat, nx: nat, ny: nat, q: Cube<real>)

  /** The nested sequences agree with the declared shape. */
  ghost predicate WellShaped(a: Arr) {
    match a
    case Vector(_) => true
    case Plane(nx, ny, m) => IsGrid(m, nx, ny)
    case Volume(nz, nx, ny, q) => IsCube(q, nz, nx, ny)
  }

  /** Every stored value survives astype("i2") without overflow. */
  ghost predicate AllFitI2(a: Arr) {
    match a
    case Vector(v) => forall i :: 0 <= i < |v| ==> FitsI2(v[i])
    case Plane(nx, ny, m) =>
      forall x, y :: 0 <= x < nx && 0 <= y < ny && x < |m| && y < |m[x]| ==> FitsI2(m[x][y])
    case Volume(nz, nx, ny, q) =>
      forall z, x, y :: 0 <= z < nz && 0 <= x < nx && 0 <= y < ny && z < |q| && x < |q[z]| && y < |q[z][x]| ==>
        FitsI2(q[z][x][y])
  }

  datatype Node = Group(members: seq<Arr>) | Dataset(value: Arr)

  /** The file: absolute object paths, written without the leading '/', to nodes. */
  datatype File = File(nodes: map<string, Node>)

  /** h5py resolves "/Grid/X" and "Grid/X" to the same object of the root
      group: the key is the path with its leading '/'s removed and the rest
      kept. */
  function Canon(path: string): (p: string)
    ensures |p| == 0 || p[0] != '/'
    decreases |path|
  {
    if |path| > 0 && path[0] == '/' then Canon(path[1..]) else path
  }

  /** The key is the path with its leading '/'s removed: what is removed is
      all '/', and the rest of the path is kept as it is. */
  lemma {:induction false} CanonKeepsRest(path: string)
    ensures |Canon(path)| <= |path| && Canon(path) == path[|path| - |Canon(path)|..]
    ensures forall i :: 0 <= i < |path| - |Canon(path)| ==> path[i] == '/'
    decreases |path|
  {
    if |path| > 0 && path[0] == '/' {
      CanonKeepsRest(path[1..]);
      assert path[1..][|path| - 1 - |Canon(path)|..] == path[|path| - |Canon(path)|..];
    }
  }

  /** A leading '/' does not change the key. */
  lemma CanonSlash(q: string)
    ensures Canon("/" + q) == Canon(q)
  {
    assert ("/" + q)[1..] == q;
  }

  /** `path in hdf`: whether the object exists, found alike with or without
      a leading '/'. */
  predicate InFile(f: File, path: string)
    ensures |path| > 0 && path[0] == '/' ==> (InFile(f, path) <==> Canon(path[1..]) in f.nodes)
    ensures |path| == 0 || path[0] != '/' ==> (InFile(f, path) <==> path in f.nodes)
  {
    Canon(path) in f.nodes
  }

  predicate IsGroup(f: File, path: string) {
    InFile(f, path) && f.nodes[Canon(path)].Group?
  }

  predicate IsDataset(f: File, path: string) {
    InFile(f, path) && f.nodes[Canon(path)].Dataset?
  }

  /** `[grp[key][...] for key in grp.keys()]` */
  function Members(f: File, path: string): seq<Arr>
    requires IsGroup(f, path)
  {
    f.nodes[Canon(path)].members
  }

  /** `hdf[path][...]` */
  function Read(f: File, path: string): Arr
    requires IsDataset(f, path)
  {
    f.nodes[Canon(path)].value
  }

  datatype HdfError = NotInFile(path: string) | LayerOutOfRange(layers: nat)

  // ---------------------------------------------------------------------
  // np.array(list of arrays): stacking the members of a group

  /** The result of stacking: rank 3 (time, x, y) or rank 4 (time, depth, x, y). */
  datatype Stack<T> =
    | Stack3(nx: nat, ny: nat, planes: Cube<T>)
    | Stack4(nz: nat, nx: nat, ny: nat, vols: seq<Cube<T>>)

  ghost predicate StackShaped<T>(s: Stack<T>, steps: nat) {
    match s
    case Stack3(nx, ny, planes) => IsCube(planes, steps, nx, ny)
    case Stack4(nz, nx, ny, vols) => IsHyper(vols, steps, nz, nx, ny)
  }

  /** The members stack into a rank-3 or rank-4 array: at least one member,
      all 2-D or all 3-D, all of one shape. */
  ghost predicate Stackable(ms: seq<Arr>) {
    && |ms| > 0
    && (forall t :: 0 <= t < |ms| ==> WellShaped(ms[t]))
    && match ms[0]
       case Vector(_) => false
       case Plane(nx, ny, _) =>
         forall t :: 0 <= t < |ms| ==> ms[t].Plane? && ms[t].nx == nx && ms[t].ny == ny
       case Volume(nz, nx, ny, _) =>
         forall t :: 0 <= t < |ms| ==> ms[t].Volume? && ms[t].nz == nz && ms[t].nx == nx && ms[t].ny == ny
  }

  function StackOf(ms: seq<Arr>): (s: Stack<real>)
    requires Stackable(ms)
    ensures StackShaped(s, |ms|)
    ensures s.Stack3? <==> ms[0].Plane?
    ensures s.nx == ms[0].nx && s.ny == ms[0].ny
    ensures s.Stack3? ==> forall t :: 0 <= t < |ms| ==> s.planes[t] == ms[t].m
    ensures s.Stack4? ==> s.nz == ms[0].nz && forall t :: 0 <= t < |ms| ==> s.vols[t] == ms[t].q
  {
    if ms[0].Plane? then
      Stack3(ms[0].nx, ms[0].ny, seq(|ms|, t requires 0 <= t < |ms| => ms[t].m))
    else
      Stack4(ms[0].nz, ms[0].nx, ms[0].ny, seq(|ms|, t requires 0 <= t < |ms| => ms[t].q))
  }
}

=== FILE: inputs.dfy ===
/**
  The configuration readers (m_inputs.py): the group of the init file that a
  program uses, and the ordered type checks on its keys. The first check that
  fails decides the error; on success the group is returned unchanged.

  The parsed JSON document stands for `json.load`, and the sets of existing
  files and directories stand for `os.path.isfile` and `os.path.isdir`.
*/
module Inputs {
  import opened Wrappers

  /** A parsed JSON value (numbers as Python would load them). */
  datatype Json =
    | Null
    | Bool(b: bool)
    | Int(i: int)
    | Float(x: real)
    | Str(s: string)
    | Array(items: seq<Json>)
    | Object(fields: map<string, Json>)

  /** What `os.path.isfile` and `os.path.isdir` answer. */
  datatype FileSystem = FileSystem(files: set<string>, dirs: set<string>)

  /** The exception name each message reports. */
  datatype ErrorKind = FileNotFoundError | TypeError | ValueError

  datatype InputError =
    | MissingInitFile               // the init file does not exist
    | GroupNotFound(grp: string)    // no non-empty dictionary for the group
    | BadValue(key: string, kind: ErrorKind)

  const INIT_FILE := "init_HDFView.json"

  /** `d.get(key)`: a missing key reads as None. */
  function Get(d: map<string, Json>, key: string): Json {
    if key in d then d[key] else Null
  }

  // ---------------------------------------------------------------------
  // init_file

  /** m_inputs.py init_file: the dictionary stored under `grp` in the init
      file. It must exist, the document must be a dictionary, and the entry
      for `grp` must be a dictionary that is not empty. */
  function InitFile(fs: FileSystem, doc: Json, grp: string): (r: Result<map<string, Json>, InputError>)
    ensures INIT_FILE !in fs.files <==> r == Err(MissingInitFile)
    ensures r.Ok? <==>
      && INIT_FILE in fs.files
      && doc.Object? && grp in doc.fields && doc.fields[grp].Object? && |doc.fields[grp].fields| > 0
    ensures r.Ok? ==> r.value == doc.fields[grp].fields
    ensures r.Err? && INIT_FILE in fs.files ==> r == Err(GroupNotFound(grp))
  {
    if INIT_FILE !in fs.files then Err(MissingInitFile)
    else
      // a dictionary document is replaced by its entry for the group
      var inpts := if doc.Object? then Get(doc.fields, grp) else doc;
      // anything but a non-empty dictionary is rejected
      if !inpts.Object? || |inpts.fields| == 0 then Err(GroupNotFound(grp))
      else Ok(inpts.fields)
  }

  // ---------------------------------------------------------------------
  // Checks on single values

  /** The guard applied to one key. */
  datatype Check =
    | ExistingFile     // isinstance(val, str) and path.isfile(val)
    | ExistingDir      // isinstance(val, str) and path.isdir(val)
    | AnyString        // isinstance(val, str)
    | NonEmptyString   // isinstance(val, str) and val != ""
    | Integer          // isinstance(val, int): a bool is an int in Python
    | Boolean          // isinstance(val, bool)
    | Number           // isinstance(val, (int, float))

  /** Whether a value passes a guard. A missing key (None) fails every guard;
      the string guards accept only strings; a bool passes as an int and as a
      number, as Python's isinstance has it. */
  predicate Passes(c: Check, v: Json, fs: FileSystem)
    ensures v.Null? ==> !Passes(c, v, fs)
    ensures Passes(c, v, fs) && (c.ExistingFile? || c.ExistingDir? || c.AnyString? || c.NonEmptyString?) ==> v.Str?
    ensures Passes(c, v, fs) && (c.Integer? || c.Boolean? || c.Number?) ==> v.Int? || v.Bool? || v.Float?
    ensures v.Bool? ==> (Passes(c, v, fs) <==> c.Integer? || c.Boolean? || c.Number?)
    ensures c.Integer? ==> (Passes(c, v, fs) <==> v.Int? || v.Bool?)
    ensures c.Number? ==> (Passes(c, v, fs) <==> v.Int? || v.Bool? || v.Float?)
  {
    match c
    case ExistingFile => v.Str? && v.s in fs.files
    case ExistingDir => v.Str? && v.s in fs.dirs
    case AnyString => v.Str?
    case NonEmptyString => v.Str? && v.s != ""
    case Integer => v.Int? || v.Bool?
    case Boolean => v.Bool?
    case Number => v.Int? || v.Bool? || v.Float?
  }

  /** One guard of a reader: the key, its check, and the error it raises. */
  datatype Rule = Rule(key: string, check: Check, kind: ErrorKind)

  predicate RulePasses(rule: Rule, d: map<string, Json>, fs: FileSystem) {
    Passes(rule.check, Get(d, rule.key), fs)
  }

  /** Guard `i` is the first one that fails. */
  predicate FirstFailure(rules: seq<Rule>, d: map<string, Json>, fs: FileSystem, i: nat) {
    && i < |rules|
    && !RulePasses(rules[i], d, fs)
    && forall j :: 0 <= j < i ==> RulePasses(rules[j], d, fs)
  }

  /** The guards run in order; the first that fails is the error. */
  function Validate(rules: seq<Rule>, d: map<string, Json>, fs: FileSystem): (r: Option<InputError>)
    ensures r == None <==> forall i :: 0 <= i < |rules| ==> RulePasses(rules[i], d, fs)
    ensures r.Some? ==>
      exists i: nat :: FirstFailure(rules, d, fs, i) && r.value == BadValue(rules[i].key, rules[i].kind)
  {
    if |rules| == 0 then None
    else if !RulePasses(rules[0], d, fs) then Some(BadValue(rules[0].key, rules[0].kind))
    else
      var r := Validate(rules[1..], d, fs);
      assert forall i :: 1 <= i < |rules| ==> rules[i] == rules[1..][i - 1];
      if r.Some? then
        var i: nat :| FirstFailure(rules[1..], d, fs, i) && r.value == BadValue(rules[1..][i].key, rules[1..][i].kind);
        assert FirstFailure(rules, d, fs, i + 1);
        r
      else r
  }

  /** Running two lists of guards one after the other: the first list's
      failure wins, otherwise the second list decides. */
  lemma {:induction false} ValidateAppend(a: seq<Rule>, b: seq<Rule>, d: map<string, Json>, fs: FileSystem)
    ensures Validate(a + b, d, fs) == if Validate(a, d, fs).Some? then Validate(a, d, fs) else Validate(b, d, fs)
  {
    if |a| > 0 {
      assert (a + b)[0] == a[0];
      assert (a + b)[1..] == a[1..] + b;
      ValidateAppend(a[1..], b, d, fs);
    } else {
      assert a + b == b;
    }
  }

  /** Only the values under the guarded keys matter. */
  lemma {:induction false} ValidateIgnoresOtherKeys(rules: seq<Rule>, d: map<string, Json>, key: string, v: Json, fs: FileSystem)
    requires forall i :: 0 <= i < |rules| ==> rules[i].key != key
    ensures Validate(rules, d[key := v], fs) == Validate(rules, d, fs)
  {
    if |rules| > 0 {
      assert Get(d[key := v], rules[0].key) == Get(d, rules[0].key);
      ValidateIgnoresOtherKeys(rules[1..], d, key, v, fs);
    }
  }

  // ---------------------------------------------------------------------
  // init_plotTS

  /** m_inputs.py init_plotTS: the "TS" group's "tsfile", which must name an
      existing file. */
  function InitPlotTS(fs: FileSystem, doc: Json): (r: Result<string, InputError>)
    ensures r.Ok? <==> InitFile(fs, doc, "TS").Ok? && Passes(ExistingFile, Get(InitFile(fs, doc, "TS").value, "tsfile"), fs)
    ensures r.Ok? ==> r.value in fs.files && Get(InitFile(fs, doc, "TS").value, "tsfile") == Str(r.value)
    ensures InitFile(fs, doc, "TS").Err? ==> r.Err? && r.error == InitFile(fs, doc, "TS").error
    ensures InitFile(fs, doc, "TS").Ok? && r.Err? ==> r.error == BadValue("tsfile", FileNotFoundError)
  {
    match InitFile(fs, doc, "TS")
    case Err(e) => Err(e)
    case Ok(inpts) =>
      var val := Get(inpts, "tsfile");
      if !val.Str? || val.s !in fs.files then Err(BadValue("tsfile", FileNotFoundError))
      else Ok(val.s)
  }

  // ---------------------------------------------------------------------
  // init_plotHDF and init_plotLAGR

  /** The guards of init_plotHDF, in the order the source runs them. */
  const PLOT_HDF_RULES: seq<Rule> := [
    Rule("hdf", ExistingFile, FileNotFoundError),
    Rule("outdir", ExistingDir, FileNotFoundError),
    Rule("prefix", AnyString, TypeError),
    Rule("field", NonEmptyString, ValueError),
    Rule("layer", Integer, TypeError),
    Rule("vectors", Boolean, TypeError),
    Rule("vec_zoom", Integer, TypeError),
    Rule("cmap", AnyString, TypeError),
    Rule("label", AnyString, TypeError),
    Rule("levels", Integer, TypeError),
    Rule("timestr", AnyString, TypeError)
  ]

  /** The guards of init_plotLAGR, in the order the source runs them. */
  const PLOT_LAGR_RULES: seq<Rule> := [
    Rule("hdf", ExistingFile, FileNotFoundError),
    Rule("outdir", ExistingDir, FileNotFoundError),
    Rule("origin_name", AnyString, TypeError),
    Rule("propertie_name", NonEmptyString, ValueError),
    Rule("cmap", AnyString, TypeError),
    Rule("label", AnyString, TypeError),
    Rule("levels", Integer, TypeError),
    Rule("vmax", Number, TypeError),
    Rule("vmin", Number, TypeError),
    Rule("timestr", AnyString, TypeError)
  ]

  /** A reader that validates group `grp` with `rules` and returns it whole. */
  function InitChecked(fs: FileSystem, doc: Json, grp: string, rules: seq<Rule>): (r: Result<map<string, Json>, InputError>)
    ensures InitFile(fs, doc, grp).Err? ==> r == InitFile(fs, doc, grp)
    ensures InitFile(fs, doc, grp).Ok? ==>
      var d := InitFile(fs, doc, grp).value;
      && (r.Ok? <==> forall i :: 0 <= i < |rules| ==> RulePasses(rules[i], d, fs))
      && (r.Ok? ==> r.value == d)
      && (r.Err? ==> Validate(rules, d, fs) == Some(r.error))
  {
    match InitFile(fs, doc, grp)
    case Err(e) => Err(e)
    case Ok(inpts) =>
      match Validate(rules, inpts, fs)
      case Some(e) => Err(e)
      case None => Ok(inpts)
  }

  /** m_inputs.py init_plotHDF */
  function InitPlotHDF(fs: FileSystem, doc: Json): (r: Result<map<string, Json>, InputError>)
    ensures r == InitChecked(fs, doc, "HDF", PLOT_HDF_RULES)
    ensures r.Ok? ==> r.value == doc.fields["HDF"].fields
  {
    InitChecked(fs, doc, "HDF", PLOT_HDF_RULES)
  }

  /** m_inputs.py init_plotLAGR */
  function InitPlotLAGR(fs: FileSystem, doc: Json): (r: Result<map<string, Json>, InputError>)
    ensures r == InitChecked(fs, doc, "LAGR", PLOT_LAGR_RULES)
    ensures r.Ok? ==> r.value == doc.fields["LAGR"].fields
  {
    InitChecked(fs, doc, "LAGR", PLOT_LAGR_RULES)
  }

  /** What a program may rely on once init_plotHDF returns. */
  lemma PlotHdfGuarantees(fs: FileSystem, doc: Json)
    requires InitPlotHDF(fs, doc).Ok?
    ensures var d := InitPlotHDF(fs, doc).value;
      && Get(d, "hdf").Str? && Get(d, "hdf").s in fs.files
      && Get(d, "outdir").Str? && Get(d, "outdir").s in fs.dirs
      && Get(d, "prefix").Str?
      && Get(d, "field").Str? && Get(d, "field").s != ""
      && (Get(d, "layer").Int? || Get(d, "layer").Bool?)
      && Get(d, "vectors").Bool?
      && (Get(d, "vec_zoom").Int? || Get(d, "vec_zoom").Bool?)
      && Get(d, "cmap").Str? && Get(d, "label").Str?
      && (Get(d, "levels").Int? || Get(d, "levels").Bool?)
      && Get(d, "timestr").Str?
  {
    var d := InitPlotHDF(fs, doc).value;
    assert forall i :: 0 <= i < |PLOT_HDF_RULES| ==> RulePasses(PLOT_HDF_RULES[i], d, fs);
    assert RulePasses(PLOT_HDF_RULES[0], d, fs) && RulePasses(PLOT_HDF_RULES[1], d, fs);
    assert RulePasses(PLOT_HDF_RULES[2], d, fs) && RulePasses(PLOT_HDF_RULES[3], d, fs);
    assert RulePasses(PLOT_HDF_RULES[4], d, fs) && RulePasses(PLOT_HDF_RULES[5], d, fs);
    assert RulePasses(PLOT_HDF_RULES[6], d, fs) && RulePasses(PLOT_HDF_RULES[7], d, fs);
    assert RulePasses(PLOT_HDF_RULES[8], d, fs) && RulePasses(PLOT_HDF_RULES[9], d, fs);
    assert RulePasses(PLOT_HDF_RULES[10], d, fs);
  }

  /** What a program may rely on once init_plotLAGR returns. */
  lemma PlotLagrGuarantees(fs: FileSystem, doc: Json)
    requires InitPlotLAGR(fs, doc).Ok?
    ensures var d := InitPlotLAGR(fs, doc).value;
      && Get(d, "hdf").Str? && Get(d, "hdf").s in fs.files
      && Get(d, "outdir").Str? && Get(d, "outdir").s in fs.dirs
      && Get(d, "origin_name").Str?
      && Get(d, "propertie_name").Str? && Get(d, "propertie_name").s != ""
      && Get(d, "cmap").Str? && Get(d, "label").Str?
      && (Get(d, "levels").Int? || Get(d, "levels").Bool?)
      && (Get(d, "vmax").Int? || Get(d, "vmax").Bool? || Get(d, "vmax").Float?)
      && (Get(d, "vmin").Int? || Get(d, "vmin").Bool? || Get(d, "vmin").Float?)
      && Get(d, "timestr").Str?
  {
    var d := InitPlotLAGR(fs, doc).value;
    assert forall i :: 0 <= i < |PLOT_LAGR_RULES| ==> RulePasses(PLOT_LAGR_RULES[i], d, fs);
    assert RulePasses(PLOT_LAGR_RULES[0], d, fs) && RulePasses(PLOT_LAGR_RULES[1], d, fs);
    assert RulePasses(PLOT_LAGR_RULES[2], d, fs) && RulePasses(PLOT_LAGR_RULES[3], d, fs);
    assert RulePasses(PLOT_LAGR_RULES[4], d, fs) && RulePasses(PLOT_LAGR_RULES[5], d, fs);
    assert RulePasses(PLOT_LAGR_RULES[6], d, fs) && RulePasses(PLOT_LAGR_RULES[7], d, fs);
    assert RulePasses(PLOT_LAGR_RULES[8], d, fs) && RulePasses(PLOT_LAGR_RULES[9], d, fs);
  }

  /** Replacing the value under `key` by one that every guard on `key`
      accepts keeps a passing group passing. */
  lemma ValidateUpdate(rules: seq<Rule>, d: map<string, Json>, key: string, v: Json, fs: FileSystem)
    requires Validate(rules, d, fs) == None
    requires forall i :: 0 <= i < |rules| && rules[i].key == key ==> Passes(rules[i].check, v, fs)
    ensures Validate(rules, d[key := v], fs) == None
  {
    forall i | 0 <= i < |rules| ensures RulePasses(rules[i], d[key := v], fs) {
      assert RulePasses(rules[i], d, fs);
    }
  }

  /** The keys of the init_plotHDF guards, in order. */
  lemma PlotHdfKeys()
    ensures forall i :: 0 <= i < |PLOT_HDF_RULES| && PLOT_HDF_RULES[i].key == "layer" ==> i == 4
  {
  }

  /** "layer" is only type-checked: once a group passes, any integer in its
      place, a negative one included, passes too. */
  lemma AnyLayerAccepted(fs: FileSystem, d: map<string, Json>, n: int)
    requires Validate(PLOT_HDF_RULES, d, fs) == None
    ensures Validate(PLOT_HDF_RULES, d["layer" := Int(n)], fs) == None
  {
    PlotHdfKeys();
    ValidateUpdate(PLOT_HDF_RULES, d, "layer", Int(n), fs);
  }

  /** "vmax" and "vmin" are checked one at a time: any two numbers pass,
      vmin above vmax included. */
  lemma AnyBoundsAccepted(fs: FileSystem, d: map<string, Json>, vmax: real, vmin: real)
    requires Validate(PLOT_LAGR_RULES, d, fs) == None
    ensures Validate(PLOT_LAGR_RULES, d["vmax" := Float(vmax)]["vmin" := Float(vmin)], fs) == None
  {
    ValidateUpdate(PLOT_LAGR_RULES, d, "vmax", Float(vmax), fs);
    ValidateUpdate(PLOT_LAGR_RULES, d["vmax" := Float(vmax)], "vmin", Float(vmin), fs);
  }
}

=== FILE: ndarray.dfy ===
/**
  The slice of numpy behaviour the extraction code relies on, over nested
  sequences: integer narrowing, transposition, axis reversal, `a[:-1]`,
  Python's negative indexing and boolean-mask selection `a[mask]`.
*/
module NdArray {

  type Grid<T> = seq<seq<T>>
  type Cube<T> = seq<Grid<T>>

  /** `m` is a rows x cols matrix (every row has `cols` entries). */
  ghost predicate IsGrid<T>(m: Grid<T>, rows: nat, cols: nat) {
    |m| == rows && forall i :: 0 <= i < rows ==> |m[i]| == cols
  }

  /** `c` has shape (n0, n1, n2). */
  ghost predicate IsCube<T>(c: Cube<T>, n0: nat, n1: nat, n2: nat) {
    && |c| == n0
    && (forall t :: 0 <= t < n0 ==> |c[t]| == n1)
    && (forall t, x :: 0 <= t < n0 && 0 <= x < n1 ==> |c[t][x]| == n2)
  }

  /** `v` has shape (n0, n1, n2, n3). */
  ghost predicate IsHyper<T>(v: seq<Cube<T>>, n0: nat, n1: nat, n2: nat, n3: nat) {
    && |v| == n0
    && (forall t :: 0 <= t < n0 ==> |v[t]| == n1)
    && (forall t, z :: 0 <= t < n0 && 0 <= z < n1 ==> |v[t][z]| == n2)
    && (forall t, z, x :: 0 <= t < n0 && 0 <= z < n1 && 0 <= x < n2 ==> |v[t][z][x]| == n3)
  }

  // ---------------------------------------------------------------------
  // astype("i2") on a float: C conversion, i.e. truncation toward zero

  const I2_MIN: int := -32768
  const I2_MAX: int := 32767

  function Trunc(x: real): (n: int)
    ensures 0.0 <= x ==> 0 <= n && n as real <= x < n as real + 1.0
    ensures x < 0.0 ==> n <= 0 && n as real - 1.0 < x <= n as real
  {
    if x >= 0.0 then x.Floor else -((-x).Floor)
  }

  /** The truncated value is representable as a signed 16-bit integer. */
  predicate FitsI2(x: real) {
    I2_MIN <= Trunc(x) <= I2_MAX
  }

  /** Narrowing an integral float gives back that integer. */
  lemma TruncOfInt(n: int)
    ensures Trunc(n as real) == n
  {
    if n < 0 {
      assert (-(n as real)).Floor == -n;
    }
  }

  /** Narrowing then comparing with 1 is the same as comparing the float with 1. */
  lemma TruncBelowOne(x: real)
    ensures Trunc(x) < 1 <==> x < 1.0
  {
  }

  // ---------------------------------------------------------------------
  // np.transpose of a 2-D array; the column count is explicit so that a
  // matrix without rows keeps its shape

  function Transpose<T>(m: Grid<T>, cols: nat): (r: Grid<T>)
    requires IsGrid(m, |m|, cols)
    ensures IsGrid(r, cols, |m|)
    ensures forall i, j :: 0 <= i < cols && 0 <= j < |m| ==> r[i][j] == m[j][i]
  {
    seq(cols, i requires 0 <= i < cols => seq(|m|, j requires 0 <= j < |m| => m[j][i]))
  }

  /** Transposing twice gives back the matrix. */
  lemma TransposeTwice<T>(m: Grid<T>, cols: nat)
    requires IsGrid(m, |m|, cols)
    ensures Transpose(Transpose(m, cols), |m|) == m
  {
    var r := Transpose(Transpose(m, cols), |m|);
    assert IsGrid(r, |m|, cols);
    forall j | 0 <= j < |m|
      ensures r[j] == m[j]
    {
      assert |r[j]| == |m[j]|;
    }
  }

  // ---------------------------------------------------------------------
  // a[::-1]

  function Reverse<T>(s: seq<T>): (r: seq<T>)
    ensures |r| == |s|
    ensures forall i :: 0 <= i < |s| ==> r[i] == s[|s| - 1 - i]
  {
    seq(|s|, i requires 0 <= i < |s| => s[|s| - 1 - i])
  }

  // ---------------------------------------------------------------------
  // a[:-1]

  function DropLast<T>(s: seq<T>): (r: seq<T>)
    ensures |s| == 0 ==> r == []
    ensures |s| > 0 ==> |r| == |s| - 1 && r + [s[|s| - 1]] == s
  {
    if |s| == 0 then [] else s[..|s| - 1]
  }

  // ---------------------------------------------------------------------
  // a[i] with Python's negative indices

  function PyIndex(i: int, n: nat): (k: nat)
    requires -(n as int) <= i < n
    ensures k < n
    ensures 0 <= i ==> k == i
    ensures i < 0 ==> k + (-i) == n
  {
    if i < 0 then i + n else i
  }

  // ---------------------------------------------------------------------
  // a[mask] for 1-D `a` and a boolean `mask` of the same length

  /** The positions where `keep` holds, in increasing order. */
  function KeptIndices(keep: seq<bool>): (idx: seq<nat>)
    ensures forall k :: 0 <= k < |idx| ==> idx[k] < |keep| && keep[idx[k]]
    ensures forall k, l :: 0 <= k < l < |idx| ==> idx[k] < idx[l]
    ensures forall i :: 0 <= i < |keep| && keep[i] ==> i in idx
  {
    if |keep| == 0 then []
    else
      var front := KeptIndices(keep[..|keep| - 1]);
      if keep[|keep| - 1] then front + [|keep| - 1] else front
  }

  /** Two strictly increasing index sequences with the same elements are equal. */
  lemma {:induction false} IncreasingUnique(a: seq<nat>, b: seq<nat>)
    requires forall k, l :: 0 <= k < l < |a| ==> a[k] < a[l]
    requires forall k, l :: 0 <= k < l < |b| ==> b[k] < b[l]
    requires forall x :: x in a <==> x in b
    ensures a == b
    decreases |a|
  {
    if |a| > 0 {
      assert a[0] in a;
    }
    if |b| > 0 {
      assert b[0] in b;
    }
    if |a| > 0 {
      assert a[0] in b && b[0] in a;
      assert a[0] == b[0];
      forall x
        ensures x in a[1..] <==> x in b[1..]
      {
        if x in a[1..] {
          assert x in b && x != b[0];
        }
        if x in b[1..] {
          assert x in a && x != a[0];
        }
      }
      IncreasingUnique(a[1..], b[1..]);
      assert a == [a[0]] + a[1..] && b == [b[0]] + b[1..];
    }
  }

  /** An increasing enumeration of exactly the kept positions is `KeptIndices`. */
  lemma KeptIndicesUnique(keep: seq<bool>, c: seq<nat>)
    requires forall k :: 0 <= k < |c| ==> c[k] < |keep| && keep[c[k]]
    requires forall k, l :: 0 <= k < l < |c| ==> c[k] < c[l]
    requires forall i :: 0 <= i < |keep| && keep[i] ==> i in c
    ensures c == KeptIndices(keep)
  {
    var idx := KeptIndices(keep);
    forall x
      ensures x in c <==> x in idx
    {
      if x in idx {
        var j :| 0 <= j < |idx| && idx[j] == x;
      }
    }
    IncreasingUnique(c, idx);
  }

  /** The positions `outer` picks out of the index list `idx`. */
  function Pick(idx: seq<nat>, outer: seq<nat>): (c: seq<nat>)
    requires forall k :: 0 <= k < |outer| ==> outer[k] < |idx|
    ensures |c| == |outer| && forall k :: 0 <= k < |outer| ==> c[k] == idx[outer[k]]
  {
    seq(|outer|, k requires 0 <= k < |outer| => idx[outer[k]])
  }

  /** Picking increasingly from an increasing list is increasing. */
  lemma PickIncreasing(idx: seq<nat>, outer: seq<nat>)
    requires forall k :: 0 <= k < |outer| ==> outer[k] < |idx|
    requires forall k, l :: 0 <= k < l < |idx| ==> idx[k] < idx[l]
    requires forall k, l :: 0 <= k < l < |outer| ==> outer[k] < outer[l]
    ensures forall k, l :: 0 <= k < l < |outer| ==> Pick(idx, outer)[k] < Pick(idx, outer)[l]
  {
  }

  /** Selecting with `outer` among the positions `inner` keeps is selecting
      in one step with `both`, the mask of the positions kept by the two. */
  lemma KeptIndicesCompose(inner: seq<bool>, outer: seq<bool>, both: seq<bool>)
    requires |outer| == |KeptIndices(inner)| && |both| == |inner|
    requires forall i :: 0 <= i < |both| && both[i] ==> inner[i]
    requires forall m :: 0 <= m < |outer| ==> (outer[m] <==> both[KeptIndices(inner)[m]])
    ensures KeptIndices(both) == Pick(KeptIndices(inner), KeptIndices(outer))
  {
    var idx1, idx2 := KeptIndices(inner), KeptIndices(outer);
    var c := Pick(idx1, idx2);
    PickIncreasing(idx1, idx2);
    forall i | 0 <= i < |both| && both[i] ensures i in c {
      assert i in idx1;
      var m :| 0 <= m < |idx1| && idx1[m] == i;
      assert m in idx2;
      var k :| 0 <= k < |idx2| && idx2[k] == m;
      assert c[k] == i;
    }
    KeptIndicesUnique(both, c);
  }

  /** numpy boolean indexing: the entries of `s` whose `keep` flag is set, in order. */
  function Compress<T>(s: seq<T>, keep: seq<bool>): (r: seq<T>)
    requires |keep| == |s|
  {
    if |s| == 0 then []
    else
      var front := Compress(s[..|s| - 1], keep[..|s| - 1]);
      if keep[|s| - 1] then front + [s[|s| - 1]] else front
  }

  /** Entry k of the selection is the entry of `s` at the k-th kept position;
      so arrays selected with one mask stay co-indexed. */
  lemma {:induction false} CompressAt<T>(s: seq<T>, keep: seq<bool>)
    requires |keep| == |s|
    ensures |Compress(s, keep)| == |KeptIndices(keep)|
    ensures forall k :: 0 <= k < |KeptIndices(keep)| ==> Compress(s, keep)[k] == s[KeptIndices(keep)[k]]
  {
    if |s| > 0 {
      CompressAt(s[..|s| - 1], keep[..|s| - 1]);
    }
  }

  /** Selecting with `inner`, then with `outer`, is selecting with `both`,
      the mask of the positions kept by the two. */
  lemma CompressTwice<T>(s: seq<T>, inner: seq<bool>, outer: seq<bool>, both: seq<bool>)
    requires |inner| == |s| && |both| == |s| && |outer| == |KeptIndices(inner)|
    requires forall i :: 0 <= i < |both| && both[i] ==> inner[i]
    requires forall m :: 0 <= m < |outer| ==> (outer[m] <==> both[KeptIndices(inner)[m]])
    ensures |Compress(s, inner)| == |outer|
    ensures Compress(Compress(s, inner), outer) == Compress(s, both)
  {
    CompressAt(s, inner);
    CompressAt(Compress(s, inner), outer);
    CompressAt(s, both);
    KeptIndicesCompose(inner, outer, both);
  }

  /** A mask that keeps everything selects the whole array. */
  lemma {:induction false} CompressAll<T>(s: seq<T>, keep: seq<bool>)
    requires |keep| == |s|
    requires forall i :: 0 <= i < |keep| ==> keep[i]
    ensures Compress(s, keep) == s
  {
    if |s| > 0 {
      CompressAll(s[..|s| - 1], keep[..|s| - 1]);
      assert s[..|s| - 1] + [s[|s| - 1]] == s;
    }
  }

  /** A mask that keeps nothing selects nothing. */
  lemma {:induction false} CompressNone<T>(s: seq<T>, keep: seq<bool>)
    requires |keep| == |s|
    requires forall i :: 0 <= i < |keep| ==> !keep[i]
    ensures Compress(s, keep) == []
  {
    if |s| > 0 {
      CompressNone(s[..|s| - 1], keep[..|s| - 1]);
    }
  }

  /** Every entry of a selection is an entry of `s` whose flag is set. */
  lemma {:induction false} CompressKept<T>(s: seq<T>, keep: seq<bool>, k: nat)
    requires |keep| == |s|
    requires k < |Compress(s, keep)|
    ensures exists i :: 0 <= i < |s| && keep[i] && Compress(s, keep)[k] == s[i]
  {
    CompressAt(s, keep);
    var i := KeptIndices(keep)[k];
    assert keep[i] && Compress(s, keep)[k] == s[i];
  }
}

=== FILE: plot_lagr.dfy ===
/**
  The data side of the Lagrangian particle plot (p_plotLAGR.py): the group
  checks, the trimmed grid, and, per time step, the particles of that step
  whose property value reaches the lower colour bound.
*/
module PlotLagr {
  import opened Wrappers
  import opened NdArray
  import opened Hdf
  import opened ReadHdf

  /** The group of one particle origin, under /Results. */
  function OriginGroup(origin: string): string {
    "/Results/" + origin
  }

  /** The group of one property of a particle origin. */
  function PropertyGroup(origin: string, prop: string): string {
    OriginGroup(origin) + "/" + prop
  }

  function LatitudeGroup(origin: string): string {
    OriginGroup(origin) + "/Latitude"
  }

  function LongitudeGroup(origin: string): string {
    OriginGroup(origin) + "/Longitude"
  }

  /** The two existence checks, origin group first: the first missing path is
      the error, and there is none when both are present. */
  function CheckGroups(f: File, origin: string, prop: string): (r: Option<HdfError>)
    ensures r == None <==> InFile(f, OriginGroup(origin)) && InFile(f, PropertyGroup(origin, prop))
    ensures r.Some? ==> r.value.NotInFile? && !InFile(f, r.value.path)
    ensures r.Some? && r.value.path == PropertyGroup(origin, prop) ==> InFile(f, OriginGroup(origin))
    ensures r.Some? ==> r.value.path in {OriginGroup(origin), PropertyGroup(origin, prop)}
  {
    if !InFile(f, OriginGroup(origin)) then Some(NotInFile(OriginGroup(origin)))
    else if !InFile(f, PropertyGroup(origin, prop)) then Some(NotInFile(PropertyGroup(origin, prop)))
    else None
  }

  /** A missing origin group is reported before the property group is looked at. */
  lemma MissingOriginFirst(f: File, origin: string, prop: string)
    requires !InFile(f, OriginGroup(origin))
    ensures CheckGroups(f, origin, prop) == Some(NotInFile(OriginGroup(origin)))
  {
  }

  // ---------------------------------------------------------------------
  // Particles

  /** Three co-indexed particle arrays: particle i is at (lon[i], lat[i]) with
      property value value[i]. */
  datatype Particles = Particles(lon: seq<real>, lat: seq<real>, value: seq<real>)

  predicate CoIndexed(p: Particles) {
    |p.lon| == |p.value| && |p.lat| == |p.value|
  }

  /** The keep mask: true where the value reaches `vmin`. */
  function AtLeast(values: seq<real>, vmin: real): (keep: seq<bool>)
    ensures |keep| == |values|
    ensures forall i :: 0 <= i < |values| ==> (keep[i] <==> values[i] >= vmin)
  {
    seq(|values|, i requires 0 <= i < |values| => values[i] >= vmin)
  }

  /** The three arrays cut with the keep mask: the particles whose value is at
      least `vmin`, all three arrays cut with the one mask, in their order. */
  function SelectParticles(p: Particles, vmin: real): (r: Particles)
    requires CoIndexed(p)
    ensures CoIndexed(r)
    ensures var idx := KeptIndices(AtLeast(p.value, vmin));
      && |r.value| == |idx|
      && forall k :: 0 <= k < |idx| ==>
           r.lon[k] == p.lon[idx[k]] && r.lat[k] == p.lat[idx[k]] && r.value[k] == p.value[idx[k]]
    ensures forall k :: 0 <= k < |r.value| ==> r.value[k] >= vmin
  {
    var keep := AtLeast(p.value, vmin);
    CompressAt(p.lon, keep);
    CompressAt(p.lat, keep);
    CompressAt(p.value, keep);
    Particles(Compress(p.lon, keep), Compress(p.lat, keep), Compress(p.value, keep))
  }

  /** Every particle whose value reaches `vmin` is among the selected ones,
      with its position and value. */
  lemma SelectKeepsQualifying(p: Particles, vmin: real, i: nat)
    requires CoIndexed(p) && i < |p.value| && p.value[i] >= vmin
    ensures var r := SelectParticles(p, vmin);
      exists k :: 0 <= k < |r.value| && (r.lon[k] == p.lon[i] && r.lat[k] == p.lat[i] && r.value[k] == p.value[i])
  {
    var idx := KeptIndices(AtLeast(p.value, vmin));
    assert i in idx;
    var k :| 0 <= k < |idx| && idx[k] == i;
    assert SelectParticles(p, vmin).lon[k] == p.lon[i];
  }

  /** Selected particles keep their relative order: the k-th selected one
      comes from an earlier source position than the l-th, for k < l. */
  lemma SelectKeepsOrder(p: Particles, vmin: real, k: nat, l: nat)
    requires CoIndexed(p) && k < l < |SelectParticles(p, vmin).value|
    ensures var idx := KeptIndices(AtLeast(p.value, vmin));
      idx[k] < idx[l] && SelectParticles(p, vmin).value[k] == p.value[idx[k]]
  {
  }

  /** A bound at or below every value keeps every particle unchanged. */
  lemma {:induction false} SelectAll(p: Particles, vmin: real)
    requires CoIndexed(p)
    requires forall i :: 0 <= i < |p.value| ==> vmin <= p.value[i]
    ensures SelectParticles(p, vmin) == p
  {
    var keep := AtLeast(p.value, vmin);
    CompressAll(p.lon, keep);
    CompressAll(p.lat, keep);
    CompressAll(p.value, keep);
  }

  /** A bound above every value leaves no particle. */
  lemma {:induction false} SelectNone(p: Particles, vmin: real)
    requires CoIndexed(p)
    requires forall i :: 0 <= i < |p.value| ==> vmin > p.value[i]
    ensures SelectParticles(p, vmin) == Particles([], [], [])
  {
    var keep := AtLeast(p.value, vmin);
    CompressNone(p.lon, keep);
    CompressNone(p.lat, keep);
    CompressNone(p.value, keep);
  }

  // ---------------------------------------------------------------------
  // The per-step loop

  /** Member `pos` (in key order) of a group, as a 1-D particle array. */
  ghost predicate HasVectorAt(f: File, path: string, pos: nat) {
    IsGroup(f, path) && pos < |Members(f, path)| && Members(f, path)[pos].Vector?
  }

  /** Every time step has a latitude, a longitude and a property member, and
      the three are co-indexed (the boolean mask needs equal shapes). */
  ghost predicate ParticlesReadable(f: File, origin: string, prop: string, steps: nat) {
    forall pos :: 0 <= pos < steps ==>
      && HasVectorAt(f, LatitudeGroup(origin), pos)
      && HasVectorAt(f, LongitudeGroup(origin), pos)
      && HasVectorAt(f, PropertyGroup(origin, prop), pos)
      && |Members(f, LatitudeGroup(origin))[pos].v| == |Members(f, PropertyGroup(origin, prop))[pos].v|
      && |Members(f, LongitudeGroup(origin))[pos].v| == |Members(f, PropertyGroup(origin, prop))[pos].v|
  }

  /** The particles of time step `pos`: the pos-th member of each group. */
  function StepParticles(f: File, origin: string, prop: string, pos: nat): (p: Particles)
    requires HasVectorAt(f, LatitudeGroup(origin), pos)
    requires HasVectorAt(f, LongitudeGroup(origin), pos)
    requires HasVectorAt(f, PropertyGroup(origin, prop), pos)
    ensures p.lat == Members(f, LatitudeGroup(origin))[pos].v
    ensures p.lon == Members(f, LongitudeGroup(origin))[pos].v
    ensures p.value == Members(f, PropertyGroup(origin, prop))[pos].v
  {
    Particles(
      Members(f, LongitudeGroup(origin))[pos].v,
      Members(f, LatitudeGroup(origin))[pos].v,
      Members(f, PropertyGroup(origin, prop))[pos].v)
  }

  /** What the loop draws: the time stamps, the trimmed cell edges, the
      bathymetry, and one particle selection per time step. */
  datatype LagrangianPlot = LagrangianPlot(
    times: seq<Timestamp>,
    lon: seq<real>,
    lat: seq<real>,
    bathymetry: Grid<Cell>,
    frames: seq<Particles>)

  /** Everything main reads once the group checks pass. */
  ghost predicate LagrangianReadable(f: File, origin: string, prop: string) {
    && TimeReadable(f) && GridReadable(f) && BathymetryReadable(f)
    && ParticlesReadable(f, origin, prop, |GetTime(f)|)
  }

  /** p_plotLAGR.py main, lines 50-108, without the drawing. */
  method PlotLagrangian(f: File, origin: string, prop: string, vmin: real) returns (r: Result<LagrangianPlot, HdfError>)
    requires CheckGroups(f, origin, prop) == None ==> LagrangianReadable(f, origin, prop)
    ensures r.Err? <==> CheckGroups(f, origin, prop).Some?
    ensures r.Err? ==> r.error == CheckGroups(f, origin, prop).value
    ensures r.Ok? ==>
      var grid := GetGrid(f);
      && r.value.times == GetTime(f)
      && r.value.lat == DropLast(grid.0) && r.value.lon == DropLast(grid.1)
      && r.value.bathymetry == GetBatim(f)
      && |r.value.frames| == |r.value.times|
      && forall pos :: 0 <= pos < |r.value.frames| ==>
           r.value.frames[pos] == SelectParticles(StepParticles(f, origin, prop, pos), vmin)
  {
    var failure := CheckGroups(f, origin, prop);
    if failure.Some? {
      return Err(failure.value);
    }

    var dtout := GetTime(f);
    var (lat, lon) := GetGrid(f);
    var batim := GetBatim(f);
    lon, lat := DropLast(lon), DropLast(lat);

    var frames: seq<Particles> := [];
    for pos := 0 to |dtout|
      invariant |frames| == pos
      invariant forall q :: 0 <= q < pos ==> frames[q] == SelectParticles(StepParticles(f, origin, prop, q), vmin)
    {
      assert HasVectorAt(f, LatitudeGroup(origin), pos) && HasVectorAt(f, LongitudeGroup(origin), pos);
      var lglat := Members(f, LatitudeGroup(origin))[pos].v;
      var lglon := Members(f, LongitudeGroup(origin))[pos].v;
      var lgdata := Members(f, PropertyGroup(origin, prop))[pos].v;
      frames := frames + [SelectParticles(Particles(lglon, lglat, lgdata), vmin)];
    }
    return Ok(LagrangianPlot(dtout, lon, lat, batim, frames));
  }

  /** Dropping the last cell edge keeps the leading edges, one per cell. */
  lemma TrimKeepsPrefix(edges: seq<real>)
    requires |edges| > 0
    ensures |DropLast(edges)| == |edges| - 1
    ensures forall i :: 0 <= i < |edges| - 1 ==> DropLast(edges)[i] == edges[i]
  {
    assert DropLast(edges) + [edges[|edges| - 1]] == edges;
    forall i | 0 <= i < |edges| - 1 ensures DropLast(edges)[i] == edges[i] {
      assert (DropLast(edges) + [edges[|edges| - 1]])[i] == DropLast(edges)[i];
    }
  }
}

=== FILE: plot_ts.dfy ===
/**
  Reading a MOHID time-series text file (p_plotTS.py): a header scan for the
  column row and the begin marker, then one row per body line up to the end
  marker, then dropping the "Seconds" and "OpenPoint" columns.

  The file is the sequence of its lines; `readline()` past the last line
  returns the empty string.
*/
module PlotTs {
  import opened Wrappers
  import opened NdArray
  import opened PyStr

  const HEADER_MARK := "YY  MM  DD  hh  mm"
  const BEGIN_MARK := "<BeginTimeSerie>"
  const END_MARK := "<EndTimeSerie>"

  /** The data frame: column names and one row of string values per body line. */
  datatype Table = Table(columns: seq<string>, rows: seq<seq<string>>)

  datatype TsError =
    | HeaderNotFound            // no column row before the begin marker
    | BadLine(lineno: nat)      // token count differs from the column count (1-based line)
    | MissingColumn(name: string)

  /** The line `readline()` returns when `k` lines have been read: the next
      line, or, past the last one, the empty string, which holds no marker and
      no token. */
  function LineAt(lines: seq<string>, k: nat): (line: string)
    ensures k < |lines| ==> line == lines[k]
    ensures k >= |lines| ==> line == "" && Split(line) == []
    ensures k >= |lines| ==> !Contains(line, HEADER_MARK) && !Contains(line, BEGIN_MARK) && !Contains(line, END_MARK)
  {
    if k < |lines| then lines[k] else ""
  }

  predicate IsHeader(line: string) {
    Contains(line, HEADER_MARK)
  }

  /** The header scan stops on a begin-marker line that is not also a column row. */
  predicate StopsHeader(line: string) {
    !IsHeader(line) && Contains(line, BEGIN_MARK)
  }

  ghost predicate HasBegin(lines: seq<string>) {
    exists k :: 0 <= k < |lines| && StopsHeader(lines[k])
  }

  // ---------------------------------------------------------------------
  // Reference definition of the reader

  /** The first line at or after `k` that stops the header scan. */
  function FirstStop(lines: seq<string>, k: nat): (b: nat)
    requires k <= |lines| && exists j :: k <= j < |lines| && StopsHeader(lines[j])
    ensures k <= b < |lines| && StopsHeader(lines[b])
    ensures forall j :: k <= j < b ==> !StopsHeader(lines[j])
    decreases |lines| - k
  {
    if StopsHeader(lines[k]) then k else FirstStop(lines, k + 1)
  }

  /** The last column row among the first `b` lines, or "" if there is none. */
  function LastHeader(lines: seq<string>, b: nat): (h: string)
    requires b <= |lines|
    ensures h == "" <==> forall j :: 0 <= j < b ==> !IsHeader(lines[j])
    ensures h != "" ==> IsHeader(h)
    ensures h != "" ==> exists j :: 0 <= j < b && h == lines[j] && forall i :: j < i < b ==> !IsHeader(lines[i])
  {
    if b == 0 then ""
    else if IsHeader(lines[b - 1]) then
      assert lines[b - 1] != "";
      lines[b - 1]
    else LastHeader(lines, b - 1)
  }

  /** The first end-marker line at or after `k`, or |lines| if none. */
  function EndIndex(lines: seq<string>, k: nat): (e: nat)
    requires k <= |lines|
    ensures k <= e <= |lines|
    ensures e < |lines| ==> Contains(lines[e], END_MARK)
    ensures forall j :: k <= j < e ==> !Contains(lines[j], END_MARK)
    decreases |lines| - k
  {
    if k == |lines| || Contains(lines[k], END_MARK) then k else EndIndex(lines, k + 1)
  }

  /** The first line in [lo, hi) whose token count is not `n`, or `hi`. */
  function FirstBadLine(lines: seq<string>, lo: nat, hi: nat, n: nat): (k: nat)
    requires lo <= hi <= |lines|
    ensures lo <= k <= hi
    ensures forall j :: lo <= j < k ==> |Split(lines[j])| == n
    ensures k < hi ==> |Split(lines[k])| != n
    decreases hi - lo
  {
    if lo == hi || |Split(lines[lo])| != n then lo else FirstBadLine(lines, lo + 1, hi, n)
  }

  /** The tokens of lines lo .. hi-1. */
  function BodyRows(lines: seq<string>, lo: nat, hi: nat): (rows: seq<seq<string>>)
    requires lo <= hi <= |lines|
    ensures |rows| == hi - lo
    ensures forall i :: 0 <= i < hi - lo ==> rows[i] == Split(lines[lo + i])
  {
    seq(hi - lo, i requires 0 <= i < hi - lo => Split(lines[lo + i]))
  }

  /** The rows of the body that starts at line `lo`, read against `n` column
      names: lines up to the first end-marker line, or the error for the first
      line with the wrong token count (1-based), or for the read past the last
      line (an empty read has no tokens). */
  function ParseBody(lines: seq<string>, lo: nat, n: nat): (r: Result<seq<seq<string>>, TsError>)
    requires lo <= |lines| && n > 0
    ensures r.Ok? ==> forall i :: 0 <= i < |r.value| ==> |r.value[i]| == n
    ensures r.Err? ==> r.error.BadLine? && lo < r.error.lineno <= |lines| + 1
    ensures r.Err? ==>
      var e := EndIndex(lines, lo);
      var bad := FirstBadLine(lines, lo, e, n);
      (bad < e && r.error.lineno == bad + 1) || (bad == e == |lines| && r.error.lineno == |lines| + 1)
    ensures r.Ok? ==> EndIndex(lines, lo) < |lines| && r.value == BodyRows(lines, lo, EndIndex(lines, lo))
    ensures r.Ok? <==> FirstBadLine(lines, lo, EndIndex(lines, lo), n) == EndIndex(lines, lo) < |lines|
  {
    var e := EndIndex(lines, lo);
    var bad := FirstBadLine(lines, lo, e, n);
    if bad < e then Err(BadLine(bad + 1))
    else if e == |lines| then Err(BadLine(|lines| + 1))
    else Ok(BodyRows(lines, lo, e))
  }

  /** What reading the file yields. The column row is the last one before the
      first begin-marker line; rows are the lines strictly between that line
      and the first end-marker line. */
  function ParseTimeSeries(lines: seq<string>): (r: Result<Table, TsError>)
    requires HasBegin(lines)
    ensures r == Err(HeaderNotFound) <==> LastHeader(lines, FirstStop(lines, 0)) == ""
    ensures r.Err? && r.error != HeaderNotFound ==> r.error.BadLine? && FirstStop(lines, 0) + 1 < r.error.lineno
    ensures LastHeader(lines, FirstStop(lines, 0)) != "" ==>
      var lo := FirstStop(lines, 0) + 1;
      var e := EndIndex(lines, lo);
      var bad := FirstBadLine(lines, lo, e, |Split(LastHeader(lines, FirstStop(lines, 0)))|);
      && (r.Ok? <==> bad == e < |lines|)
      && (r.Err? && bad < e ==> r == Err(BadLine(bad + 1)))
      && (r.Err? && bad == e ==> r == Err(BadLine(|lines| + 1)))
    ensures r.Ok? ==> r.value.columns == Split(LastHeader(lines, FirstStop(lines, 0)))
    ensures r.Ok? ==> var lo := FirstStop(lines, 0) + 1;
      EndIndex(lines, lo) < |lines| && r.value.rows == BodyRows(lines, lo, EndIndex(lines, lo))
    ensures r.Ok? ==> |r.value.columns| > 0
    ensures r.Ok? ==> forall i :: 0 <= i < |r.value.rows| ==> |r.value.rows[i]| == |r.value.columns|
  {
    var b := FirstStop(lines, 0);
    var header := LastHeader(lines, b);
    if header == "" then Err(HeaderNotFound)
    else
      HeaderHasColumns(header);
      var columns := Split(header);
      var body := ParseBody(lines, b + 1, |columns|);
      if body.Err? then Err(body.error) else Ok(Table(columns, body.value))
  }

  /** A column row splits into at least one name. */
  lemma HeaderHasColumns(line: string)
    requires IsHeader(line)
    ensures |Split(line)| > 0
  {
    var j := ContainsNonSpace(line, HEADER_MARK, 0);
    SplitNonEmpty(line, j);
  }

  // ---------------------------------------------------------------------
  // The reader as the source runs it

  /** p_plotTS.py main, lines 27-39: the header loop. It reads up to and
      including the first begin-marker line, keeping the last column row. */
  method ScanHeader(lines: seq<string>) returns (columns: string, linepos: nat)
    requires HasBegin(lines)
    ensures linepos == FirstStop(lines, 0) + 1
    ensures columns == LastHeader(lines, FirstStop(lines, 0))
  {
    ghost var b := FirstStop(lines, 0);
    columns := "";
    var readstop := false;
    linepos := 0;

    while !readstop
      invariant 0 <= linepos <= b + 1
      invariant readstop <==> linepos == b + 1
      invariant columns == LastHeader(lines, if linepos <= b then linepos else b)
      decreases b + 1 - linepos
    {
      var line := LineAt(lines, linepos);
      linepos := linepos + 1;
      if IsHeader(line) {
        columns := line;
      } else if Contains(line, BEGIN_MARK) {
        readstop := true;
      }
    }
  }

  /** p_plotTS.py main, lines 51-70: the body loop, from line `linepos` on,
      against `n` column names. */
  method ReadBody(lines: seq<string>, linepos: nat, n: nat) returns (r: Result<seq<seq<string>>, TsError>)
    requires linepos <= |lines| && n > 0
    ensures r == ParseBody(lines, linepos, n)
  {
    ghost var e := EndIndex(lines, linepos);
    var pos := linepos;
    var rows: seq<seq<string>> := [];
    var readstop := false;

    while !readstop
      invariant linepos <= pos <= e + 1
      invariant !readstop ==> pos <= e
      invariant readstop ==> pos == e + 1 && e < |lines|
      invariant forall j :: linepos <= j < pos && j < e ==> |Split(lines[j])| == n
      invariant rows == BodyRows(lines, linepos, if readstop then e else pos)
      decreases |lines| + 1 - pos
    {
      var line := LineAt(lines, pos);
      pos := pos + 1;
      if Contains(line, END_MARK) {
        readstop := true;
      } else {
        var values := Split(line);
        if |values| != n {
          assert pos - 1 < e ==> FirstBadLine(lines, linepos, e, n) == pos - 1;
          return Err(BadLine(pos));
        }
        rows := rows + [values];
      }
    }
    assert FirstBadLine(lines, linepos, e, n) == e;
    return Ok(rows);
  }

  /** p_plotTS.py main, lines 27-70: the header scan, then the body. */
  method ReadTimeSeries(lines: seq<string>) returns (r: Result<Table, TsError>)
    requires HasBegin(lines)
    ensures r == ParseTimeSeries(lines)
  {
    var columns, linepos := ScanHeader(lines);
    if columns == "" {
      return Err(HeaderNotFound);
    }
    var names := Split(columns);
    HeaderHasColumns(columns);
    var body := ReadBody(lines, linepos, |names|);
    match body {
      case Err(err) => return Err(err);
      case Ok(rows) => return Ok(Table(names, rows));
    }
  }

  // ---------------------------------------------------------------------
  // Dropping columns

  /** Every row has one value per column. */
  ghost predicate Rectangular(t: Table) {
    forall i :: 0 <= i < |t.rows| ==> |t.rows[i]| == |t.columns|
  }

  /** The columns whose label is not one of `names`. */
  function ColumnMask(columns: seq<string>, names: seq<string>): (keep: seq<bool>)
    ensures |keep| == |columns|
    ensures forall i :: 0 <= i < |columns| ==> (keep[i] <==> columns[i] !in names)
  {
    seq(|columns|, i requires 0 <= i < |columns| => columns[i] !in names)
  }

  /** `df.drop(names, axis=1)` once every label is known to be a column: every
      column labelled with one of `names` goes, with its value in every row;
      the other columns keep their order, labels and values. */
  function DropAll(t: Table, names: seq<string>): (r: Table)
    requires Rectangular(t)
    ensures Rectangular(r) && |r.rows| == |t.rows|
    ensures var idx := KeptIndices(ColumnMask(t.columns, names));
      && |r.columns| == |idx|
      && (forall k :: 0 <= k < |idx| ==> r.columns[k] == t.columns[idx[k]])
      && (forall i, k :: 0 <= i < |t.rows| && 0 <= k < |idx| ==> r.rows[i][k] == t.rows[i][idx[k]])
    ensures forall c :: c in r.columns <==> c in t.columns && c !in names
    ensures (forall c :: c in names ==> c !in t.columns) ==> r == t
  {
    var keep := ColumnMask(t.columns, names);
    DropAllFacts(t, names);
    Table(Compress(t.columns, keep), CompressEach(t.rows, keep))
  }

  /** Every row selected with one mask. */
  function CompressEach(rows: seq<seq<string>>, keep: seq<bool>): (r: seq<seq<string>>)
    requires forall i :: 0 <= i < |rows| ==> |rows[i]| == |keep|
    ensures |r| == |rows|
    ensures forall i :: 0 <= i < |rows| ==> r[i] == Compress(rows[i], keep)
  {
    seq(|rows|, i requires 0 <= i < |rows| => Compress(rows[i], keep))
  }

  lemma DropAllFacts(t: Table, names: seq<string>)
    requires Rectangular(t)
    ensures var keep := ColumnMask(t.columns, names);
      var r := Table(Compress(t.columns, keep), CompressEach(t.rows, keep));
      var idx := KeptIndices(keep);
      && Rectangular(r)
      && |r.columns| == |idx|
      && (forall k :: 0 <= k < |idx| ==> r.columns[k] == t.columns[idx[k]])
      && (forall i, k :: 0 <= i < |t.rows| && 0 <= k < |idx| ==> r.rows[i][k] == t.rows[i][idx[k]])
      && (forall c :: c in r.columns <==> c in t.columns && c !in names)
      && ((forall c :: c in names ==> c !in t.columns) ==> r == t)
  {
    var keep := ColumnMask(t.columns, names);
    CompressRows(t.rows, keep, |t.columns|);
    CompressAt(t.columns, keep);
    CompressedNames(t.columns, names);
    if forall c :: c in names ==> c !in t.columns {
      DropNothing(t, names);
    }
  }

  /** A mask for labels none of which is a column keeps the table as it is. */
  lemma DropNothing(t: Table, names: seq<string>)
    requires Rectangular(t)
    requires forall c :: c in names ==> c !in t.columns
    ensures var keep := ColumnMask(t.columns, names);
      Table(Compress(t.columns, keep), CompressEach(t.rows, keep)) == t
  {
    var keep := ColumnMask(t.columns, names);
    forall i | 0 <= i < |keep| ensures keep[i] {
      assert t.columns[i] in t.columns;
    }
    CompressAll(t.columns, keep);
    CompressRowsAll(t.rows, keep, |t.columns|);
  }

  /** Each row, selected with the column mask, keeps the values at the kept positions. */
  lemma CompressRows(rows: seq<seq<string>>, keep: seq<bool>, n: nat)
    requires |keep| == n && forall i :: 0 <= i < |rows| ==> |rows[i]| == n
    ensures forall i :: 0 <= i < |rows| ==> |Compress(rows[i], keep)| == |KeptIndices(keep)|
    ensures forall i, k :: 0 <= i < |rows| && 0 <= k < |KeptIndices(keep)| ==>
      Compress(rows[i], keep)[k] == rows[i][KeptIndices(keep)[k]]
  {
    forall i | 0 <= i < |rows|
      ensures |Compress(rows[i], keep)| == |KeptIndices(keep)|
      ensures forall k :: 0 <= k < |KeptIndices(keep)| ==> Compress(rows[i], keep)[k] == rows[i][KeptIndices(keep)[k]]
    {
      CompressAt(rows[i], keep);
    }
  }

  /** With a mask that keeps every column, every row is unchanged. */
  lemma CompressRowsAll(rows: seq<seq<string>>, keep: seq<bool>, n: nat)
    requires |keep| == n && forall i :: 0 <= i < |rows| ==> |rows[i]| == n
    requires forall i :: 0 <= i < n ==> keep[i]
    ensures CompressEach(rows, keep) == rows
  {
    forall i | 0 <= i < |rows| ensures Compress(rows[i], keep) == rows[i] {
      CompressAll(rows[i], keep);
    }
  }

  /** The labels left after dropping `names` are exactly the other labels. */
  lemma CompressedNames(columns: seq<string>, names: seq<string>)
    ensures forall c :: c in Compress(columns, ColumnMask(columns, names)) <==> c in columns && c !in names
  {
    var keep := ColumnMask(columns, names);
    var idx := KeptIndices(keep);
    var cols := Compress(columns, keep);
    CompressAt(columns, keep);
    forall c | c in columns && c !in names ensures c in cols {
      var i :| 0 <= i < |columns| && columns[i] == c;
      var k :| 0 <= k < |idx| && idx[k] == i;
      assert cols[k] == c;
    }
    forall c | c in cols ensures c in columns && c !in names {
      var k :| 0 <= k < |cols| && cols[k] == c;
      assert c == columns[idx[k]];
    }
  }

  /** Dropping `a`, then `b`, is dropping `a + b` at once. */
  lemma DropTwice(t: Table, a: seq<string>, b: seq<string>)
    requires Rectangular(t)
    ensures DropAll(DropAll(t, a), b) == DropAll(t, a + b)
  {
    var inner, both := ColumnMask(t.columns, a), ColumnMask(t.columns, a + b);
    var cols := Compress(t.columns, inner);
    var outer := ColumnMask(cols, b);
    var idx1 := KeptIndices(inner);
    CompressAt(t.columns, inner);
    forall m | 0 <= m < |outer| ensures outer[m] <==> both[idx1[m]] {
      assert cols[m] == t.columns[idx1[m]];
    }
    CompressTwice(t.columns, inner, outer, both);
    CompressEachTwice(t.rows, inner, outer, both);
  }

  /** Every row selected with `inner`, then with `outer`, is the row selected
      with `both`. */
  lemma CompressEachTwice(rows: seq<seq<string>>, inner: seq<bool>, outer: seq<bool>, both: seq<bool>)
    requires |both| == |inner| && |outer| == |KeptIndices(inner)|
    requires forall i :: 0 <= i < |rows| ==> |rows[i]| == |inner|
    requires forall i :: 0 <= i < |both| && both[i] ==> inner[i]
    requires forall m :: 0 <= m < |outer| ==> (outer[m] <==> both[KeptIndices(inner)[m]])
    ensures forall i :: 0 <= i < |rows| ==> |Compress(rows[i], inner)| == |outer|
    ensures CompressEach(CompressEach(rows, inner), outer) == CompressEach(rows, both)
  {
    forall i | 0 <= i < |rows|
      ensures |Compress(rows[i], inner)| == |outer|
      ensures Compress(Compress(rows[i], inner), outer) == Compress(rows[i], both)
    {
      CompressTwice(rows[i], inner, outer, both);
    }
  }

  /** p_plotTS.py:76-79: "Seconds" is always dropped (the drop fails when the
      column is absent); "OpenPoint" only when present. Together this is one
      drop of both labels. */
  function DropSecondsAndOpenPoint(t: Table): (r: Result<Table, TsError>)
    requires Rectangular(t)
    ensures r.Err? <==> "Seconds" !in t.columns
    ensures r.Err? ==> r.error == MissingColumn("Seconds")
    ensures r.Ok? ==> r.value == DropAll(t, ["Seconds", "OpenPoint"])
    ensures r.Ok? ==> forall c :: c in r.value.columns <==> c in t.columns && c != "Seconds" && c != "OpenPoint"
  {
    if "Seconds" !in t.columns then Err(MissingColumn("Seconds"))
    else
      var t1 := DropAll(t, ["Seconds"]);
      DropTwice(t, ["Seconds"], ["OpenPoint"]);
      assert ["Seconds"] + ["OpenPoint"] == ["Seconds", "OpenPoint"];
      if "OpenPoint" in t1.columns then Ok(DropAll(t1, ["OpenPoint"])) else Ok(t1)
  }

  // ---------------------------------------------------------------------
  // Separating the date columns from the value columns

  /** The date parts as the file labels them. */
  const MOHID_DATE_COLUMNS: seq<string> := ["YY", "MM", "DD", "hh", "mm", "ss"]

  /** The six date parts, under their new names. */
  const DATE_COLUMNS: seq<string> := ["year", "month", "day", "hours", "minutes", "seconds"]

  /** The rename of p_plotTS.py:82-85 on one label: each date part of the file
      gets its new name, and every other label is kept. */
  function RenameLabel(c: string): (n: string)
    ensures forall k :: 0 <= k < |MOHID_DATE_COLUMNS| && c == MOHID_DATE_COLUMNS[k] ==> n == DATE_COLUMNS[k]
    ensures c !in MOHID_DATE_COLUMNS ==> n == c
  {
    if c == "YY" then "year"
    else if c == "MM" then "month"
    else if c == "DD" then "day"
    else if c == "hh" then "hours"
    else if c == "mm" then "minutes"
    else if c == "ss" then "seconds"
    else c
  }

  /** `df.rename(columns=...)`: labels change, values stay where they are. */
  function RenameColumns(t: Table): (r: Table)
    ensures r.rows == t.rows && |r.columns| == |t.columns|
    ensures forall i :: 0 <= i < |t.columns| ==> r.columns[i] == RenameLabel(t.columns[i])
  {
    Table(seq(|t.columns|, i requires 0 <= i < |t.columns| => RenameLabel(t.columns[i])), t.rows)
  }

  /** The first listed label that is not a column, if any. */
  function FirstMissing(columns: seq<string>, names: seq<string>): (m: Option<string>)
    ensures m == None <==> forall k :: 0 <= k < |names| ==> names[k] in columns
    ensures m.Some? ==> m.value in names && m.value !in columns
  {
    if |names| == 0 then None
    else if names[0] !in columns then Some(names[0])
    else
      assert forall k :: 1 <= k < |names| ==> names[k] == names[1..][k - 1];
      FirstMissing(columns, names[1..])
  }

  /** `df.drop(names, axis=1)`: every listed label must be a column (one that
      is not is the error); then all their columns go, and the other columns
      keep their order, labels and values. */
  function DropColumns(t: Table, names: seq<string>): (r: Result<Table, TsError>)
    requires Rectangular(t)
    ensures r.Ok? <==> forall k :: 0 <= k < |names| ==> names[k] in t.columns
    ensures r.Err? ==> r.error.MissingColumn? && r.error.name in names && r.error.name !in t.columns
    ensures r.Ok? ==> Rectangular(r.value) && |r.value.rows| == |t.rows|
    ensures r.Ok? ==> var idx := KeptIndices(ColumnMask(t.columns, names));
      && |r.value.columns| == |idx|
      && (forall k :: 0 <= k < |idx| ==> r.value.columns[k] == t.columns[idx[k]])
      && (forall i, k :: 0 <= i < |t.rows| && 0 <= k < |idx| ==> r.value.rows[i][k] == t.rows[i][idx[k]])
    ensures r.Ok? ==> forall c :: c in r.value.columns <==> c in t.columns && c !in names
    ensures r.Ok? ==> r.value == DropAll(t, names)
  {
    match FirstMissing(t.columns, names)
    case Some(name) => Err(MissingColumn(name))
    case None => Ok(DropAll(t, names))
  }

  /** `c` is the new label of an original column other than "Seconds" and
      "OpenPoint". */
  ghost predicate RenamedFrom(columns: seq<string>, c: string) {
    exists i :: 0 <= i < |columns| && columns[i] != "Seconds" && columns[i] != "OpenPoint" && RenameLabel(columns[i]) == c
  }

  /** A renamed label comes from an original column other than "Seconds" and
      "OpenPoint" once those two are dropped. */
  lemma RenamedOrigin(t: Table, t1: Table, c: string)
    requires forall d :: d in t1.columns <==> d in t.columns && d != "Seconds" && d != "OpenPoint"
    requires c in RenameColumns(t1).columns
    ensures RenamedFrom(t.columns, c)
  {
    var t2 := RenameColumns(t1);
    var k :| 0 <= k < |t2.columns| && t2.columns[k] == c;
    assert t1.columns[k] in t1.columns;
    var i :| 0 <= i < |t.columns| && t.columns[i] == t1.columns[k];
  }

  /** An original column other than "Seconds" and "OpenPoint" survives the
      drop under its new label. */
  lemma OriginRenamed(t: Table, t1: Table, i: nat)
    requires forall d :: d in t1.columns <==> d in t.columns && d != "Seconds" && d != "OpenPoint"
    requires i < |t.columns| && t.columns[i] != "Seconds" && t.columns[i] != "OpenPoint"
    ensures RenameLabel(t.columns[i]) in RenameColumns(t1).columns
  {
    assert t.columns[i] in t.columns;
    var k :| 0 <= k < |t1.columns| && t1.columns[k] == t.columns[i];
    assert RenameColumns(t1).columns[k] == RenameLabel(t.columns[i]);
  }

  /** After the first drop and the rename, the labels are exactly the renamed
      original labels other than "Seconds" and "OpenPoint". */
  lemma RenamedLabels(t: Table, t1: Table)
    requires forall d :: d in t1.columns <==> d in t.columns && d != "Seconds" && d != "OpenPoint"
    ensures forall c :: c in RenameColumns(t1).columns <==> RenamedFrom(t.columns, c)
  {
    forall c | c in RenameColumns(t1).columns ensures RenamedFrom(t.columns, c) {
      RenamedOrigin(t, t1, c);
    }
    forall c | RenamedFrom(t.columns, c) ensures c in RenameColumns(t1).columns {
      var i :| 0 <= i < |t.columns| && t.columns[i] != "Seconds" && t.columns[i] != "OpenPoint" && RenameLabel(t.columns[i]) == c;
      OriginRenamed(t, t1, i);
    }
  }

  /** The value columns: neither "Seconds" nor "OpenPoint", and not a date
      part once renamed. */
  function ValueMask(columns: seq<string>): (keep: seq<bool>)
    ensures |keep| == |columns|
    ensures forall i :: 0 <= i < |columns| ==>
      (keep[i] <==> columns[i] != "Seconds" && columns[i] != "OpenPoint" && RenameLabel(columns[i]) !in DATE_COLUMNS)
  {
    seq(|columns|, i requires 0 <= i < |columns| =>
      columns[i] != "Seconds" && columns[i] != "OpenPoint" && RenameLabel(columns[i]) !in DATE_COLUMNS)
  }

  /** The first drop, the rename and the drop of the date parts, composed:
      the k-th column left is the k-th value column, renamed, with its values. */
  lemma ValueCells(t: Table)
    requires Rectangular(t)
    ensures var r := DropAll(RenameColumns(DropAll(t, ["Seconds", "OpenPoint"])), DATE_COLUMNS);
      var idx := KeptIndices(ValueMask(t.columns));
      && |r.columns| == |idx|
      && (forall k :: 0 <= k < |idx| ==> r.columns[k] == RenameLabel(t.columns[idx[k]]))
      && (forall i, k :: 0 <= i < |t.rows| && 0 <= k < |idx| ==> r.rows[i][k] == t.rows[i][idx[k]])
  {
    var t1 := DropAll(t, ["Seconds", "OpenPoint"]);
    var t2 := RenameColumns(t1);
    var inner, outer, both := ColumnMask(t.columns, ["Seconds", "OpenPoint"]), ColumnMask(t2.columns, DATE_COLUMNS), ValueMask(t.columns);
    var idx1 := KeptIndices(inner);
    forall m | 0 <= m < |outer| ensures outer[m] <==> both[idx1[m]] {
      assert t2.columns[m] == RenameLabel(t.columns[idx1[m]]);
    }
    KeptIndicesCompose(inner, outer, both);
  }

  /** p_plotTS.py:74-91 without the date conversion: drop "Seconds" (and
      "OpenPoint"), rename the date parts, then drop them. It fails on a
      missing "Seconds" or a missing date part, and otherwise leaves the value
      columns, renamed, in their order and with their values. */
  function ValueColumns(t: Table): (r: Result<Table, TsError>)
    requires Rectangular(t)
    ensures r.Ok? <==> "Seconds" in t.columns && forall k :: 0 <= k < |DATE_COLUMNS| ==> RenamedFrom(t.columns, DATE_COLUMNS[k])
    ensures "Seconds" !in t.columns ==> r == Err(MissingColumn("Seconds"))
    ensures r.Err? && "Seconds" in t.columns ==>
      r.error.MissingColumn? && r.error.name in DATE_COLUMNS && !RenamedFrom(t.columns, r.error.name)
    ensures r.Ok? ==> Rectangular(r.value) && |r.value.rows| == |t.rows|
    ensures r.Ok? ==> var idx := KeptIndices(ValueMask(t.columns));
      && |r.value.columns| == |idx|
      && (forall k :: 0 <= k < |idx| ==> r.value.columns[k] == RenameLabel(t.columns[idx[k]]))
      && (forall i, k :: 0 <= i < |t.rows| && 0 <= k < |idx| ==> r.value.rows[i][k] == t.rows[i][idx[k]])
    ensures r.Ok? ==> forall c :: c in r.value.columns <==> RenamedFrom(t.columns, c) && c !in DATE_COLUMNS
  {
    match DropSecondsAndOpenPoint(t)
    case Err(e) => Err(e)
    case Ok(t1) =>
      RenamedLabels(t, t1);
      ValueCells(t);
      DropColumns(RenameColumns(t1), DATE_COLUMNS)
  }
}

=== FILE: pystr.dfy ===
/** The two Python string operations the time-series reader uses: `pat in s`
    and `s.split()` with no separator. */
module PyStr {

  /** The characters `str.split()` separates on (those `str.isspace()`
      accepts): \t, \n, \v, \f, \r, the four ASCII separators U+001C to
      U+001F, space, U+0085, U+00A0, U+1680, U+2000 to U+200A, U+2028,
      U+2029, U+202F, U+205F and U+3000. */
  predicate IsSpace(c: char) {
    var n := c as int;
    || 9 <= n <= 13
    || 0x1C <= n <= 0x20
    || n == 0x85 || n == 0xA0 || n == 0x1680
    || 0x2000 <= n <= 0x200A
    || n == 0x2028 || n == 0x2029 || n == 0x202F || n == 0x205F || n == 0x3000
  }

  /** `pat` occurs in `s` starting at position i. */
  predicate OccursAt(s: string, pat: string, i: nat) {
    i + |pat| <= |s| && s[i..i + |pat|] == pat
  }

  /** `pat in s` */
  predicate Contains(s: string, pat: string) {
    exists i: nat :: i <= |s| && OccursAt(s, pat, i)
  }

  /** Length of the leading run of non-whitespace characters. */
  function TokenLen(s: string): (n: nat)
    ensures n <= |s|
    ensures forall i :: 0 <= i < n ==> !IsSpace(s[i])
    ensures n < |s| ==> IsSpace(s[n])
  {
    if |s| == 0 || IsSpace(s[0]) then 0 else 1 + TokenLen(s[1..])
  }

  /** A token of `split()`: non-empty, no whitespace. */
  predicate IsToken(t: string) {
    |t| > 0 && forall i :: 0 <= i < |t| ==> !IsSpace(t[i])
  }

  /** `s.split()`: the maximal runs of non-whitespace characters, in order. */
  function Split(s: string): (tokens: seq<string>)
    ensures forall k :: 0 <= k < |tokens| ==> IsToken(tokens[k])
    decreases |s|
  {
    if |s| == 0 then []
    else if IsSpace(s[0]) then Split(s[1..])
    else
      var n := TokenLen(s);
      [s[..n]] + Split(s[n..])
  }

  /** `" ".join(tokens)` */
  function Join(tokens: seq<string>): (s: string)
    ensures |tokens| == 0 ==> s == ""
  {
    if |tokens| == 0 then ""
    else if |tokens| == 1 then tokens[0]
    else tokens[0] + " " + Join(tokens[1..])
  }

  /** A token followed by whitespace or the end splits off as one token. */
  lemma {:induction false} SplitToken(t: string, rest: string)
    requires IsToken(t)
    requires |rest| == 0 || IsSpace(rest[0])
    ensures Split(t + rest) == [t] + Split(rest)
  {
    var s := t + rest;
    TokenLenOf(t, rest);
    assert s[..|t|] == t;
    assert s[|t|..] == rest;
  }

  lemma {:induction false} TokenLenOf(t: string, rest: string)
    requires forall i :: 0 <= i < |t| ==> !IsSpace(t[i])
    requires |rest| == 0 || IsSpace(rest[0])
    ensures TokenLen(t + rest) == |t|
  {
    if |t| == 0 {
      assert t + rest == rest;
    } else {
      TokenLenOf(t[1..], rest);
      assert (t + rest)[1..] == t[1..] + rest;
    }
  }

  /** Splitting words joined by single spaces gives the words back. */
  lemma {:induction false} SplitJoin(tokens: seq<string>)
    requires forall k :: 0 <= k < |tokens| ==> IsToken(tokens[k])
    ensures Split(Join(tokens)) == tokens
  {
    if |tokens| == 1 {
      SplitToken(tokens[0], "");
      assert tokens[0] + "" == tokens[0];
    } else if |tokens| > 1 {
      var rest := Join(tokens[1..]);
      SplitJoin(tokens[1..]);
      assert " " + rest == [' '] + rest;
      assert Split(" " + rest) == Split(rest);
      assert tokens[0] + " " + rest == tokens[0] + (" " + rest);
      SplitToken(tokens[0], " " + rest);
      assert tokens == [tokens[0]] + tokens[1..];
    }
  }

  /** A string with a non-whitespace character splits into at least one token. */
  lemma {:induction false} SplitNonEmpty(s: string, j: nat)
    requires j < |s| && !IsSpace(s[j])
    ensures |Split(s)| > 0
    decreases |s|
  {
    if IsSpace(s[0]) {
      SplitNonEmpty(s[1..], j - 1);
    }
  }

  /** If `pat in s`, every character of `pat` is a character of `s`; in
      particular a non-whitespace one. */
  lemma ContainsNonSpace(s: string, pat: string, i: nat) returns (j: nat)
    requires Contains(s, pat) && i < |pat| && !IsSpace(pat[i])
    ensures j < |s| && s[j] == pat[i] && !IsSpace(s[j])
  {
    var p: nat :| p <= |s| && OccursAt(s, pat, p);
    j := p + i;
    assert s[j] == s[p..p + |pat|][i];
  }
}

=== FILE: readhdf.dfy ===
/**
  Extraction of time, grid, bathymetry and gridded fields from a MOHID HDF5
  output file (m_readhdf.py).
*/
module ReadHdf {
  import opened Wrappers
  import opened NdArray
  import opened Hdf

  const TIME := "Time"
  const LATITUDE := "/Grid/Latitude"
  const LONGITUDE := "/Grid/Longitude"
  const BATHYMETRY := "Grid/Bathymetry"
  const OPEN_POINTS := "Grid/OpenPoints"

  /** Bathymetry values below this are land. */
  const LAND_SENTINEL: real := -98.0

  /** An element of a numpy masked array: the value and its mask bit. */
  datatype Cell = Cell(value: real, masked: bool)

  // =====================================================================
  // getTime

  datatype Timestamp = Timestamp(year: int, month: int, day: int, hour: int, minute: int, second: int)

  /** A stored time step: [year, month, day, hour, minute, second] as floats
      that survive narrowing to 16 bits. */
  ghost predicate IsTimeRecord(a: Arr) {
    a.Vector? && |a.v| == 6 && forall e :: 0 <= e < 6 ==> FitsI2(a.v[e])
  }

  ghost predicate TimeReadable(f: File) {
    IsGroup(f, TIME) && forall k :: 0 <= k < |Members(f, TIME)| ==> IsTimeRecord(Members(f, TIME)[k])
  }

  /** `datetime(*tuple(record.astype("i2")))` */
  function ToTimestamp(rec: seq<real>): Timestamp
    requires |rec| == 6
  {
    Timestamp(Trunc(rec[0]), Trunc(rec[1]), Trunc(rec[2]), Trunc(rec[3]), Trunc(rec[4]), Trunc(rec[5]))
  }

  /** One timestamp per member of the Time group, in key order; each field is
      the corresponding stored value narrowed to a 16-bit integer. */
  function GetTime(f: File): (ts: seq<Timestamp>)
    requires TimeReadable(f)
    ensures |ts| == |Members(f, TIME)|
    ensures forall k :: 0 <= k < |ts| ==>
      var v := Members(f, TIME)[k].v;
      && ts[k].year == Trunc(v[0]) && ts[k].month == Trunc(v[1]) && ts[k].day == Trunc(v[2])
      && ts[k].hour == Trunc(v[3]) && ts[k].minute == Trunc(v[4]) && ts[k].second == Trunc(v[5])
  {
    var recs := Members(f, TIME);
    seq(|recs|, k requires 0 <= k < |recs| && TimeReadable(f) && recs == Members(f, TIME) => ToTimestamp(recs[k].v))
  }

  /** How MOHID writes a timestamp: the six fields as floats. */
  function EncodeTime(t: Timestamp): Arr {
    Vector([t.year as real, t.month as real, t.day as real, t.hour as real, t.minute as real, t.second as real])
  }

  predicate FitsTimestamp(t: Timestamp) {
    && I2_MIN <= t.year <= I2_MAX && I2_MIN <= t.month <= I2_MAX && I2_MIN <= t.day <= I2_MAX
    && I2_MIN <= t.hour <= I2_MAX && I2_MIN <= t.minute <= I2_MAX && I2_MIN <= t.second <= I2_MAX
  }

  /** Reading back a Time group written from timestamps gives those timestamps. */
  lemma GetTimeRoundTrip(f: File, ts: seq<Timestamp>)
    requires forall k :: 0 <= k < |ts| ==> FitsTimestamp(ts[k])
    requires IsGroup(f, TIME) && |Members(f, TIME)| == |ts|
    requires forall k :: 0 <= k < |ts| ==> Members(f, TIME)[k] == EncodeTime(ts[k])
    ensures TimeReadable(f) && GetTime(f) == ts
  {
    forall k | 0 <= k < |ts|
      ensures IsTimeRecord(Members(f, TIME)[k]) && ToTimestamp(Members(f, TIME)[k].v) == ts[k]
    {
      var t := ts[k];
      TruncOfInt(t.year); TruncOfInt(t.month); TruncOfInt(t.day);
      TruncOfInt(t.hour); TruncOfInt(t.minute); TruncOfInt(t.second);
    }
  }

  // =====================================================================
  // getgrid

  ghost predicate GridReadable(f: File) {
    && IsDataset(f, LATITUDE) && Read(f, LATITUDE).Plane? && WellShaped(Read(f, LATITUDE)) && Read(f, LATITUDE).nx > 0
    && IsDataset(f, LONGITUDE) && Read(f, LONGITUDE).Plane? && WellShaped(Read(f, LONGITUDE)) && Read(f, LONGITUDE).ny > 0
  }

  /** (lat, lon): row 0 of the latitude mesh, and row 0 of the transposed
      longitude mesh, i.e. its column 0. */
  function GetGrid(f: File): (r: (seq<real>, seq<real>))
    requires GridReadable(f)
    ensures r.0 == Read(f, LATITUDE).m[0]
    ensures |r.1| == Read(f, LONGITUDE).nx
    ensures forall i :: 0 <= i < |r.1| ==> r.1[i] == Read(f, LONGITUDE).m[i][0]
  {
    var lat := Read(f, LATITUDE);
    var lon := Read(f, LONGITUDE);
    (lat.m[0], Transpose(lon.m, lon.ny)[0])
  }

  /** MOHID's latitude mesh of shape (|lonb|, |latb|): every row is the latitude bounds. */
  function LatMesh(lonb: seq<real>, latb: seq<real>): Arr {
    Plane(|lonb|, |latb|, seq(|lonb|, i => latb))
  }

  /** MOHID's longitude mesh of shape (|lonb|, |latb|): row i repeats longitude bound i. */
  function LonMesh(lonb: seq<real>, latb: seq<real>): Arr {
    Plane(|lonb|, |latb|, seq(|lonb|, i requires 0 <= i < |lonb| => seq(|latb|, j => lonb[i])))
  }

  /** getgrid recovers the 1-D bounds from the stored meshgrids. */
  lemma GridOfMeshgrid(f: File, lonb: seq<real>, latb: seq<real>)
    requires |lonb| > 0 && |latb| > 0
    requires IsDataset(f, LATITUDE) && Read(f, LATITUDE) == LatMesh(lonb, latb)
    requires IsDataset(f, LONGITUDE) && Read(f, LONGITUDE) == LonMesh(lonb, latb)
    ensures GridReadable(f) && GetGrid(f) == (latb, lonb)
  {
    var (lat, lon) := GetGrid(f);
    assert lat == latb;
    forall i | 0 <= i < |lonb| ensures lon[i] == lonb[i] {
      assert Read(f, LONGITUDE).m[i][0] == lonb[i];
    }
    assert lon == lonb;
  }

  // =====================================================================
  // getbatim

  ghost predicate BathymetryReadable(f: File) {
    IsDataset(f, BATHYMETRY) && Read(f, BATHYMETRY).Plane? && WellShaped(Read(f, BATHYMETRY))
  }

  /** np.ma.masked_less(m, bound) on a 2-D array. */
  function MaskedLess(m: Grid<real>, bound: real): (r: Grid<Cell>)
    ensures |r| == |m|
    ensures forall i :: 0 <= i < |m| ==> |r[i]| == |m[i]|
    ensures forall i, j :: 0 <= i < |m| && 0 <= j < |m[i]| ==> r[i][j] == Cell(m[i][j], m[i][j] < bound)
  {
    seq(|m|, i requires 0 <= i < |m| => seq(|m[i]|, j requires 0 <= j < |m[i]| => Cell(m[i][j], m[i][j] < bound)))
  }

  /** The bathymetry as (lat, lon): entry [i][j] is stored entry [j][i],
      masked exactly when it is below the land sentinel (-98 itself is water). */
  function GetBatim(f: File): (r: Grid<Cell>)
    requires BathymetryReadable(f)
    ensures IsGrid(r, Read(f, BATHYMETRY).ny, Read(f, BATHYMETRY).nx)
    ensures forall i, j :: 0 <= i < Read(f, BATHYMETRY).ny && 0 <= j < Read(f, BATHYMETRY).nx ==>
      var stored := Read(f, BATHYMETRY).m[j][i];
      r[i][j] == Cell(stored, stored < LAND_SENTINEL)
  {
    var b := Read(f, BATHYMETRY);
    MaskedLess(Transpose(b.m, b.ny), LAND_SENTINEL)
  }

  /** The values of a masked 2-D array, masked or not. */
  function Values(g: Grid<Cell>): (r: Grid<real>)
    ensures |r| == |g|
    ensures forall i :: 0 <= i < |g| ==> |r[i]| == |g[i]| && forall j :: 0 <= j < |g[i]| ==> r[i][j] == g[i][j].value
  {
    seq(|g|, i requires 0 <= i < |g| => seq(|g[i]|, j requires 0 <= j < |g[i]| => g[i][j].value))
  }

  /** Masking loses no value: transposing the bathymetry values back gives the stored array. */
  lemma BatimKeepsStoredValues(f: File)
    requires BathymetryReadable(f)
    ensures var b := Read(f, BATHYMETRY);
            IsGrid(Values(GetBatim(f)), b.ny, b.nx) && Transpose(Values(GetBatim(f)), b.nx) == b.m
  {
    var b := Read(f, BATHYMETRY);
    var vals := Values(GetBatim(f));
    var t := Transpose(b.m, b.ny);
    forall i | 0 <= i < b.ny ensures vals[i] == t[i] {
      assert |vals[i]| == |t[i]|;
    }
    assert vals == t;
    TransposeTwice(b.m, b.ny);
  }

  // =====================================================================
  // get2Ddata

  /** `a.astype("i2")` followed by `np.ma.masked_less(., 1).mask`, on a rank-3 array. */
  function CubeBelowOne(c: Cube<real>, n0: nat, n1: nat, n2: nat): (r: Cube<bool>)
    requires IsCube(c, n0, n1, n2)
    ensures IsCube(r, n0, n1, n2)
    ensures forall t, x, y :: 0 <= t < n0 && 0 <= x < n1 && 0 <= y < n2 ==> r[t][x][y] == (Trunc(c[t][x][y]) < 1)
  {
    seq(n0, t requires 0 <= t < n0 =>
      seq(n1, x requires 0 <= x < n1 =>
        seq(n2, y requires 0 <= y < n2 => Trunc(c[t][x][y]) < 1)))
  }

  /** The land mask of a stacked OpenPoints group: narrowed to 16 bits, then
      true where the value is below 1. */
  function BelowOne(s: Stack<real>, steps: nat): (b: Stack<bool>)
    requires StackShaped(s, steps)
    ensures StackShaped(b, steps)
    ensures b.Stack3? == s.Stack3? && b.nx == s.nx && b.ny == s.ny
    ensures b.Stack3? ==> forall t, x, y :: 0 <= t < steps && 0 <= x < s.nx && 0 <= y < s.ny ==>
      b.planes[t][x][y] == (Trunc(s.planes[t][x][y]) < 1)
    ensures b.Stack4? ==> b.nz == s.nz && forall t, z, x, y :: 0 <= t < steps && 0 <= z < s.nz && 0 <= x < s.nx && 0 <= y < s.ny ==>
      b.vols[t][z][x][y] == (Trunc(s.vols[t][z][x][y]) < 1)
  {
    match s
    case Stack3(nx, ny, planes) => Stack3(nx, ny, CubeBelowOne(planes, steps, nx, ny))
    case Stack4(nz, nx, ny, vols) =>
      Stack4(nz, nx, ny, seq(steps, t requires 0 <= t < steps => CubeBelowOne(vols[t], nz, nx, ny)))
  }

  /** `a[:, ::-1]`: every step's depth axis reversed. */
  function FlipDepth<T>(vols: seq<Cube<T>>, nz: nat, nx: nat, ny: nat): (r: seq<Cube<T>>)
    requires IsHyper(vols, |vols|, nz, nx, ny)
    ensures IsHyper(r, |vols|, nz, nx, ny)
    ensures forall t, z :: 0 <= t < |vols| && 0 <= z < nz ==> r[t][z] == vols[t][nz - 1 - z]
  {
    seq(|vols|, t requires 0 <= t < |vols| => Reverse(vols[t]))
  }

  /** `a[:, l]`: one depth index of every step. */
  function TakeLayer<T>(vols: seq<Cube<T>>, l: nat, nz: nat, nx: nat, ny: nat): (r: Cube<T>)
    requires l < nz
    requires IsHyper(vols, |vols|, nz, nx, ny)
    ensures IsCube(r, |vols|, nx, ny)
    ensures forall t :: 0 <= t < |vols| ==> r[t] == vols[t][l]
  {
    seq(|vols|, t requires 0 <= t < |vols| => vols[t][l])
  }

  /** For a rank-4 stack, `a[:, ::-1][:, layerid]` -- storage runs from the
      bottom up, so the depth axis is reversed before the layer is taken. */
  function SelectLayer<T>(s: Stack<T>, layerid: int, steps: nat): (r: Cube<T>)
    requires StackShaped(s, steps)
    requires s.Stack4? ==> -(s.nz as int) <= layerid < s.nz
    ensures IsCube(r, steps, s.nx, s.ny)
    ensures s.Stack3? ==> r == s.planes
    ensures s.Stack4? ==> forall t, x, y :: 0 <= t < steps && 0 <= x < s.nx && 0 <= y < s.ny ==>
      r[t][x][y] == s.vols[t][s.nz - 1 - PyIndex(layerid, s.nz)][x][y]
  {
    if s.Stack4? then TakeLayer(FlipDepth(s.vols, s.nz, s.nx, s.ny), PyIndex(layerid, s.nz), s.nz, s.nx, s.ny)
    else s.planes
  }

  /** `np.ma.masked_array(data, mask=mask)` for arrays of one shape. */
  function MaskWith(data: Cube<real>, mask: Cube<bool>, n0: nat, n1: nat, n2: nat): (r: Cube<Cell>)
    requires IsCube(data, n0, n1, n2) && IsCube(mask, n0, n1, n2)
    ensures IsCube(r, n0, n1, n2)
    ensures forall t, x, y :: 0 <= t < n0 && 0 <= x < n1 && 0 <= y < n2 ==> r[t][x][y] == Cell(data[t][x][y], mask[t][x][y])
  {
    seq(n0, t requires 0 <= t < n0 =>
      seq(n1, x requires 0 <= x < n1 =>
        seq(n2, y requires 0 <= y < n2 => Cell(data[t][x][y], mask[t][x][y]))))
  }

  /** `np.transpose(a, (0, 2, 1))`. */
  function SwapLastAxes<T>(c: Cube<T>, n0: nat, n1: nat, n2: nat): (r: Cube<T>)
    requires IsCube(c, n0, n1, n2)
    ensures IsCube(r, n0, n2, n1)
    ensures forall t, i, j :: 0 <= t < n0 && 0 <= i < n2 && 0 <= j < n1 ==> r[t][i][j] == c[t][j][i]
  {
    seq(n0, t requires 0 <= t < n0 => Transpose(c[t], n2))
  }

  /** get2Ddata's layer check passes: a 2-D field ignores `layerid`; a 3-D
      field needs 0 <= layerid < depth. */
  ghost predicate LayerAccepted(g: seq<Arr>, layerid: int)
    requires Stackable(g)
  {
    g[0].Plane? || 0 <= layerid < g[0].nz
  }

  /** The OpenPoints group stacks to the field's number of steps and spatial
      shape, its values fit 16 bits, and, when it is 3-D, `layerid` is a valid
      (possibly negative) index into its depth axis. */
  ghost predicate MaskMatches(f: File, g: seq<Arr>, layerid: int)
    requires Stackable(g)
  {
    && IsGroup(f, OPEN_POINTS)
    && MaskFits(Members(f, OPEN_POINTS), g, layerid)
    && forall t :: 0 <= t < |Members(f, OPEN_POINTS)| ==> AllFitI2(Members(f, OPEN_POINTS)[t])
  }

  /** What numpy and h5py need for get2Ddata to run to one of its own exits. */
  ghost predicate Extractable(f: File, fldgrp: string, layerid: int) {
    InFile(f, fldgrp) ==>
      && IsGroup(f, fldgrp)
      && Stackable(Members(f, fldgrp))
      && (LayerAccepted(Members(f, fldgrp), layerid) ==> MaskMatches(f, Members(f, fldgrp), layerid))
  }

  /** The value that step `a` contributes at spatial position (x, y) when
      layer `layerid` is extracted: a 2-D step as stored; a 3-D step, stored
      bottom to top, at depth index nz - 1 - layerid (Python indexing into the
      depth axis reversed). */
  ghost function LayerValue(a: Arr, layerid: int, x: nat, y: nat): real
    requires WellShaped(a) && !a.Vector? && x < a.nx && y < a.ny
    requires a.Volume? ==> -(a.nz as int) <= layerid < a.nz
  {
    if a.Plane? then a.m[x][y] else a.q[a.nz - 1 - PyIndex(layerid, a.nz)][x][y]
  }

  /** Layer 0 is the last stored depth slice (the surface); a layer counted
      from 0 down reads the stored slices backwards, and a negative layer
      counts from the bottom (-1 is the first stored slice). */
  lemma LayerIndexing(a: Arr, layerid: int, x: nat, y: nat)
    requires WellShaped(a) && a.Volume? && x < a.nx && y < a.ny
    requires -(a.nz as int) <= layerid < a.nz
    ensures layerid == 0 ==> LayerValue(a, layerid, x, y) == a.q[a.nz - 1][x][y]
    ensures 0 <= layerid ==> LayerValue(a, layerid, x, y) == a.q[a.nz - 1 - layerid][x][y]
    ensures layerid < 0 ==> LayerValue(a, layerid, x, y) == a.q[-layerid - 1][x][y]
  {
  }

  /** Stacking the members, then taking the layer, gives each member's layer value. */
  lemma SelectLayerOfMembers(ms: seq<Arr>, layerid: int, t: nat, x: nat, y: nat)
    requires Stackable(ms)
    requires ms[0].Volume? ==> -(ms[0].nz as int) <= layerid < ms[0].nz
    requires t < |ms| && x < ms[0].nx && y < ms[0].ny
    ensures SelectLayer(StackOf(ms), layerid, |ms|)[t][x][y] == LayerValue(ms[t], layerid, x, y)
  {
  }

  /** The same for the land mask built from the members. */
  lemma SelectMaskOfMembers(ms: seq<Arr>, layerid: int, t: nat, x: nat, y: nat)
    requires Stackable(ms)
    requires ms[0].Volume? ==> -(ms[0].nz as int) <= layerid < ms[0].nz
    requires t < |ms| && x < ms[0].nx && y < ms[0].ny
    ensures SelectLayer(BelowOne(StackOf(ms), |ms|), layerid, |ms|)[t][x][y] == (Trunc(LayerValue(ms[t], layerid, x, y)) < 1)
  {
    var s := StackOf(ms);
    if s.Stack4? {
      assert ms[t].q == s.vols[t];
    }
  }

  /** The OpenPoints members fit the field members `g`: same number of steps
      and spatial shape, 16-bit values, and `layerid` a valid index into a
      3-D mask's depth axis. */
  ghost predicate MaskFits(o: seq<Arr>, g: seq<Arr>, layerid: int)
    requires Stackable(g)
  {
    && Stackable(o) && |o| == |g| && o[0].nx == g[0].nx && o[0].ny == g[0].ny
    && (o[0].Volume? ==> -(o[0].nz as int) <= layerid < o[0].nz)
  }

  /** The selected layer of the field, masked with the selected layer of the
      land mask, as (time, lat, lon). */
  function MaskedLayer(g: seq<Arr>, o: seq<Arr>, layerid: int): (r: Cube<Cell>)
    requires Stackable(g) && LayerAccepted(g, layerid) && MaskFits(o, g, layerid)
    ensures IsCube(r, |g|, g[0].ny, g[0].nx)
    ensures forall t, i, j :: 0 <= t < |g| && 0 <= i < g[0].ny && 0 <= j < g[0].nx ==>
      r[t][i][j] == Cell(LayerValue(g[t], layerid, j, i), Trunc(LayerValue(o[t], layerid, j, i)) < 1)
  {
    var nx, ny := g[0].nx, g[0].ny;
    var field := SelectLayer(StackOf(g), layerid, |g|);
    var mask := SelectLayer(BelowOne(StackOf(o), |o|), layerid, |o|);
    var r := SwapLastAxes(MaskWith(field, mask, |g|, nx, ny), |g|, nx, ny);
    MaskedLayerValues(g, o, layerid);
    r
  }

  lemma MaskedLayerValues(g: seq<Arr>, o: seq<Arr>, layerid: int)
    requires Stackable(g) && LayerAccepted(g, layerid) && MaskFits(o, g, layerid)
    ensures var nx, ny := g[0].nx, g[0].ny;
      var field := SelectLayer(StackOf(g), layerid, |g|);
      var mask := SelectLayer(BelowOne(StackOf(o), |o|), layerid, |o|);
      var r := SwapLastAxes(MaskWith(field, mask, |g|, nx, ny), |g|, nx, ny);
      forall t, i, j :: 0 <= t < |g| && 0 <= i < ny && 0 <= j < nx ==>
        r[t][i][j] == Cell(LayerValue(g[t], layerid, j, i), Trunc(LayerValue(o[t], layerid, j, i)) < 1)
  {
    var nx, ny := g[0].nx, g[0].ny;
    forall t, i, j | 0 <= t < |g| && 0 <= i < ny && 0 <= j < nx
      ensures SelectLayer(StackOf(g), layerid, |g|)[t][j][i] == LayerValue(g[t], layerid, j, i)
      ensures SelectLayer(BelowOne(StackOf(o), |o|), layerid, |o|)[t][j][i] == (Trunc(LayerValue(o[t], layerid, j, i)) < 1)
    {
      SelectLayerOfMembers(g, layerid, t, j, i);
      SelectMaskOfMembers(o, layerid, t, j, i);
    }
  }

  /** Reads the members of a group one by one, in key order, appending each. */
  method CollectMembers(f: File, path: string) returns (data: seq<Arr>)
    requires IsGroup(f, path)
    ensures data == Members(f, path)
  {
    var g := Members(f, path);
    data := [];
    for k := 0 to |g|
      invariant data == g[..k]
    {
      data := data + [g[k]];
    }
  }

  /** get2Ddata: the field `fldgrp` at layer `layerid` for every step, as a
      masked array of shape (time, lat, lon). */
  method Get2DData(f: File, fldgrp: string, layerid: int) returns (r: Result<Cube<Cell>, HdfError>)
    requires Extractable(f, fldgrp, layerid)
    ensures !InFile(f, fldgrp) <==> r == Err(NotInFile(fldgrp))
    ensures InFile(f, fldgrp) && !LayerAccepted(Members(f, fldgrp), layerid) ==>
      r == Err(LayerOutOfRange(Members(f, fldgrp)[0].nz))
    ensures r.Ok? <==> InFile(f, fldgrp) && LayerAccepted(Members(f, fldgrp), layerid)
    ensures r.Ok? ==>
      var g := Members(f, fldgrp);
      var o := Members(f, OPEN_POINTS);
      && IsCube(r.value, |g|, g[0].ny, g[0].nx)
      && forall t, i, j :: 0 <= t < |g| && 0 <= i < g[0].ny && 0 <= j < g[0].nx ==>
           r.value[t][i][j] == Cell(LayerValue(g[t], layerid, j, i), Trunc(LayerValue(o[t], layerid, j, i)) < 1)
  {
    if !InFile(f, fldgrp) {
      return Err(NotInFile(fldgrp));
    }
    var data := CollectMembers(f, fldgrp);
    var stack := StackOf(data);
    if stack.Stack4? && !(0 <= layerid < stack.nz) {
      return Err(LayerOutOfRange(stack.nz));
    }
    var mask := CollectMembers(f, OPEN_POINTS);
    r := Ok(MaskedLayer(data, mask, layerid));
  }
}

=== FILE: wrappers.dfy ===
/** Success/failure results for the operations that stop with an error message. */
module Wrappers {

  datatype Option<+T> = None | Some(value: T)

  datatype Result<+T, +E> = Ok(value: T) | Err(error: E)
}
